=== FILE: README.md ===
# Image search functions: a Dafny model

This project models the Azure Functions app of `image-search-example`. Its
first entry point, `process_blob`, handles Event Grid blob-created events:

- it derives the blob URL from the event subject;
- it keeps only files with an image extension;
- it vectorises each image with Azure AI Vision and analyses it there;
- it uploads a document to an Azure AI Search index.

Each indexed document is keyed by a version-5 UUID of the image's file name.
The second entry point, `query_endpoint`, is an HTTP route. It embeds a
text query and returns the most similar indexed images.

The model is purely functional. The outbound services appear as one record
of total functions (`Platform.Services`):

- the HTTP post to the vectorisation API;
- image analysis;
- index upload, delete and search;
- text embedding;
- SHA-1.

Every operation returns its result together with the list of calls it issued
(`Platform.Traced`). Statements such as "the analyser is never called" or "no
upload happens" are therefore facts about that list. Settings read from the
environment become a `Platform.Config` of optional strings. A Python exception
becomes a `Failure`.

Modules, following the source files:

- `Subject`: `extract_blob_url_from_subject`.
- `Eligibility`: `is_image_file`, including the part of `urlparse` that finds
  the path.
- `Analysis`: `analyze_image`, `bounding_box_to_dict` and
  `bounding_polygon_to_list`.
- `Enrichment`: the vectorisation request, its URL, the reply handling and
  `process_image_complete`.
- `Uuid`, `Utf8` and `Search`: `generate_document_id` (UUID5 in the DNS
  namespace), `upload`, `delete_image` and `search_similar_images`.
- `App`: the gate sequence of `process_blob` and the status table of
  `query_endpoint`.
- `Example`: one subject traced through the pipeline.
- `Strings` and `Wrappers`: shared helpers.

Behaviour of the code worth knowing, modelled as written:

- **Any processing failure aborts.** `process_image_complete` re-raises any
  failure of vectorisation or analysis, so an analysis failure skips indexing:
  `process_blob` returns before uploading (`function_app/function_app.py:75-77`)
  (`Enrichment.ProcessImageComplete`, `App.ProcessingFailureSkipsUpload`).
- **The embedding must have a length.** Before uploading, `process_blob` logs
  `len` of the embedding (`function_app/function_app.py:52`). A vectorisation
  reply whose `vector` is `null`, a boolean or a number makes that `len` raise,
  and the handler returns without uploading (`App.UnsizedEmbeddingSkipsUpload`).
- **Objects are named by their first tag.** `Analysis.ObjectToRecord` takes an
  object's first tag, or `unknown` with confidence 0 when it has none.
- **Field names do not match.** `upload` stores the name and URL under
  `filename` and `url`, but `search_similar_images` selects and reads
  `image_name` and `image_url`. This is modelled as written.
  `Search.StoredDocumentLosesNameAndUrl` states the consequence for a hit that
  carries back the stored fields.

## Model

| member | source | states |
|---|---|---|
| Subject.ParseSubject | function_app/functions.py:34-49 | An empty subject fails as empty. Fewer than six `/`-segments, or a missing `containers` or `blobs` token, fails as an invalid format. A parsed container never contains `/`. The success value for every subject is stated by `Subject.ParseFirstTokens`. |
| Subject.ExtractBlobUrl | function_app/functions.py:29-57 | The storage account is consulted only after the subject parses. A missing or empty account is the fourth error. Success holds exactly when both hold, and the URL is `https://{account}.blob.core.windows.net/{container}/{blob}`. |
| Subject.ParseSucceedsIff | function_app/functions.py:38-46 | A subject parses iff it is non-empty, has at least six segments, and both tokens occur before the final segment. Both directions are stated. |
| Subject.BlobNameIsTail | function_app/functions.py:43-49 | The subject ends with `blobs/` followed by the extracted blob name. Slashes inside blob names therefore survive the split and re-join. |
| Subject.ParseWellFormed | function_app/functions.py:38-49 | Any subject `{prefix}/containers/{c}/blobs/{name}` parses to container `c` and blob name `name`. This needs a prefix holding neither token, a one-segment `c` other than `blobs`, and at least six segments in all. |
| Subject.ParseFirstTokens | function_app/functions.py:38-49 | For any subject of six or more segments, with `containers` first at `ci` and `blobs` first at `bi`: parsing succeeds iff both have a following segment. The container is then the segment after `ci`, and the blob name is the `/`-join of every segment after `bi`. Otherwise parsing fails with `CannotExtract`. Later occurrences of either token are ignored. |
| Subject.ExtractWellFormed | function_app/functions.py:29-57 | Under that shape and a set account, the URL is the template filled with the account, container and full blob name. |
| Eligibility.ImageFileIff | function_app/functions.py:219-224 | `is_image_file(url)` holds iff the URL's path has a last dot after which the lower-cased text is one of the eight extensions. |
| Eligibility.UrlPath | function_app/functions.py:221 | The path `urlparse` finds holds no `#` and no `?`. `Eligibility.UrlPathOf` gives its exact value for URLs of the shape `scheme://host/path`. |
| Strings.ToLower | function_app/functions.py:222 | Lower-casing keeps the length and maps each character through `LowerChar`. ASCII capitals become small letters and every other character is kept. |
| Strings.Split | function_app/functions.py:38 | `str.split(c)` gives at least one piece and no piece contains `c`. `Strings.JoinSplit` and `Strings.SplitJoin` make it the inverse of `join`. |
| Strings.Join | function_app/functions.py:49 | `c.join(parts)`. `Strings.JoinSplit` and `Strings.SplitJoin` make `Split` its inverse. |
| Strings.IndexOf | function_app/functions.py:42-43 | `list.index`: the returned position holds the element and no earlier position does. `Strings.IndexOfFirst` shows that this is the only such position. |
| Strings.RStrip | function_app/functions.py:69 | `rstrip(c)` gives a prefix of the input that does not end in `c`, and everything it removed is `c`. |
| Eligibility.ImagePathIff | function_app/functions.py:219-224 | A path is an image iff it has a last dot whose lower-cased suffix is one of the eight extensions. |
| Eligibility.NoExtensionNotImage | function_app/functions.py:222 | A path without a dot, or ending in a dot, is never an image. |
| Eligibility.CaseIgnored | function_app/functions.py:222 | Two paths equal up to ASCII case are both images or both not. |
| Eligibility.UrlPathOf | function_app/functions.py:221 | The path `urlparse` extracts from `scheme://host/path` is exactly `/path` when the host has no `/`, `?` or `#` and the path has no `?` or `#`. |
| Eligibility.BlobUrlEligibility | functions.py:219-224 | For an account free of `/`, `?` and `#`, and a container and blob name free of `?` and `#`, whether the blob URL passes `is_image_file` depends only on the blob name. The account, container and folders do not matter. |
| Eligibility.TailDecidesImage | function_app/functions.py:222-224 | After a `/`, the suffix alone decides eligibility: no extension can reach back across a slash. |
| Analysis.BoxToRecord | function_app/functions.py:129-137 | A missing box stays missing. Otherwise x, y, width and height are copied. |
| Analysis.PolygonToList | function_app/functions.py:140-143 | A missing polygon stays missing. Otherwise every point is kept, in order, with its coordinates. |
| Analysis.ObjectToRecord | function_app/functions.py:158-165 | An object is named by its first tag with that tag's confidence. Without tags it is `unknown` with confidence 0. |
| Analysis.Normalise | function_app/functions.py:146-178 | The record keeps the URL. The caption and confidence are present iff the result has a caption. Each absent section becomes an empty list, and every list has the length of its section. |
| Analysis.AnalyzeImage | function_app/functions.py:113-184 | A failed service call propagates with the same error. A successful one gives exactly the normalised record of that result for the same URL. |
| Analysis.FlattenLines | function_app/functions.py:170-177 | The nested comprehension yields one record per line over all blocks. `Analysis.FlattenOrder` gives each line's position. |
| Analysis.NormaliseKeepsTextOrder | function_app/functions.py:170-177 | In the normalised record, line k of read block j is text record number (lines of earlier blocks) + k, with that line's text. |
| Analysis.FlattenOrder | function_app/functions.py:170-177 | Line k of block j lands at position (lines of earlier blocks) + k of the flattened text list. |
| Analysis.NormalisePreservesOrder | function_app/functions.py:150-169 | Every dense caption, object and tag is kept in order, with its fields copied and the first-tag rule applied. |
| Analysis.EmptyResultNormalisesEmpty | function_app/functions.py:148-177 | A result without any section gives no caption and four empty lists. |
| Enrichment.VectorizeUrl | functions.py:69 | The URL is the endpoint with every trailing `/` removed, followed by the vectorisation path. |
| Enrichment.TrailingSlashesIgnored | function_app/functions.py:69 | Any number of trailing slashes on the endpoint gives the same request URL. |
| Enrichment.VectorField | function_app/functions.py:100 | A JSON object yields its `vector` member, or `[]` when it has none. A reply that is not an object fails. |
| Enrichment.ReadReply | function_app/functions.py:85-110 | A connection failure and a 4xx or 5xx status each fail with their reason. Success holds exactly for a non-error status with a JSON object body. The record then carries the URL, the vector and both fixed versions. |
| Enrichment.Vectorize | functions.py:60-110 | Without both Vision settings the call fails before any request. Otherwise exactly one POST is issued, with the stripped URL, the key, `2024-02-01` and `2023-04-15`. |
| Enrichment.AnalysisClient | function_app/functions.py:15-26 | The client is available iff the Vision endpoint and key are both set and non-empty. |
| Enrichment.ProcessImageComplete | function_app/functions.py:187-216 | The vectorisation call comes first. Its failure aborts with only that call. Success holds iff vectorisation and analysis both succeed, and the only calls are the vectorisation POST and an analysis of this URL. |
| Enrichment.UnconfiguredMakesNoCalls | functions.py:62-66 | Without the Vision settings no call at all is made, and the error is the settings message. |
| Enrichment.AnalyzerNotCalledAfterVectorizeFailure | function_app/functions.py:191-195 | When vectorisation fails the analyser is never called. |
| Enrichment.ClientCheckPassesAfterVectorize | function_app/functions.py:194 | After a successful vectorisation the client check cannot fail, and the calls are the POST and then one analysis. |
| Enrichment.AnalysisFailurePropagates | function_app/functions.py:195 | A failed analysis after a successful vectorisation aborts with the analyser's error. |
| Enrichment.MergedRecord | function_app/functions.py:198-210 | The merged record holds the URL, the vectoriser's vector, model `2023-04-15`, and the six analysis fields of the normalised analysis. |
| Enrichment.MissingVectorIsEmpty | function_app/functions.py:100 | A successful reply without a `vector` member gives an empty embedding. |
| Uuid.Uuid5Bytes | function_app/search.py:20 | The version nibble of byte 6 is 5 and the variant bits of byte 8 are `10`. Every other bit of the first 16 digest bytes is kept. |
| Uuid.UuidString | function_app/search.py:20 | `str(uuid)` has 36 characters with hyphens at 8, 13, 18 and 23. Byte k shows as hex digits 2k and 2k+1, high nibble first, at their hyphen-shifted positions. |
| Utf8.Encode | function_app/search.py:20 | A name encodes to between one and four bytes per character. `Utf8.DecodeEncode` inverts it. |
| Uuid.ParseUuidString | function_app/search.py:20 | The 36-character hyphenated text of 16 bytes parses back to the same bytes. |
| Uuid.ParseUuid | function_app/search.py:15 | `uuid.UUID(text)` for the lowercase canonical 8-4-4-4-12 form: it gives 16 bytes exactly on canonical text. Braces, `urn:uuid:`, uppercase and unhyphenated forms are rejected. `Uuid.ParseUuidString` and `Uuid.UuidStringParse` make it the inverse of `UuidString`. |
| Uuid.UuidStringParse | function_app/search.py:15 | Every canonical UUID text is the rendering of the bytes it parses to. |
| Uuid.UuidStringInjective | function_app/search.py:20 | Different 16-byte values render as different texts. |
| Uuid.UuidStringCanonical | function_app/search.py:20 | A rendered UUID has hyphens at 8, 13, 18 and 23 and lower-case hex digits elsewhere. |
| Uuid.UnhexHex | function_app/search.py:15-20 | Hex decoding inverts hex encoding for any byte sequence. |
| Uuid.HexUnhex | function_app/search.py:15-20 | Hex encoding inverts hex decoding for any even-length digit string. |
| Uuid.VersionAndVariantDigits | function_app/search.py:20 | Character 14 of a version-5 id is `5`, and character 19 is one of `8`, `9`, `a` or `b`. |
| Utf8.DecodeEncode | function_app/search.py:20 | The UTF-8 bytes hashed for a name decode back to the name. |
| Utf8.EncodeInjective | function_app/search.py:20 | Different names have different UTF-8 encodings. |
| Utf8.EncodeAscii | function_app/search.py:20 | An ASCII name encodes to one byte per character with the same value. |
| Search.NamespaceIsDns | function_app/search.py:15 | The namespace bytes are exactly those of the DNS namespace UUID text written in the source. |
| Search.HashInput | function_app/search.py:20 | The hashed input is the 16 namespace bytes followed by the name's UTF-8 encoding. |
| Search.GenerateDocumentId | function_app/search.py:18-20 | The id is a canonical UUID text with version 5 and RFC 4122 variant. It parses to the version-5 bytes of the SHA-1 of namespace plus name. |
| Search.IdCollisionNeedsHashCollision | function_app/search.py:18-20 | Two different names share an id only if SHA-1 maps two different inputs to digests that agree on every bit the UUID keeps. |
| Search.IdsEqualIff | function_app/search.py:18-20 | Two ids are equal iff their UUID bytes are equal. |
| Search.Interpret | function_app/search.py:78-111 | A failed call gives a failure with its message, and an empty answer gives the no-result failure. Success iff the first entry succeeded, and it reports that entry's key and status. A rejection iff the first entry failed, and it carries that entry's key, status and error. |
| Search.MakeDocument | function_app/search.py:70-75 | The document has the UUID5 id of the image name, the name, the URL and the vector. |
| Search.Upload | function_app/search.py:53-111 | Without the three search settings: the settings failure, and nothing is uploaded. Otherwise: exactly one upload of that one document, with the outcome read from the first result entry. |
| Search.DeleteImage | function_app/search.py:161-209 | Without the three search settings: the settings failure, with no call. Otherwise: exactly one delete of the id upload would use, read the same way. |
| Search.DeleteTargetsUploadedDocument | function_app/search.py:174-178 | The id deleted for a name is the id uploaded for it. |
| Search.FormatHit | function_app/search.py:146-151 | `id`, `image_name` and `image_url` are `Some` exactly when the hit has the key. The Python dict always holds all four keys. `None` there stands for a missing key (`None` here) or a stored `null` (`Some(JNull)` here). The score is the hit's `@search.score`, or 0.0 when absent. |
| Search.FormatHits | function_app/search.py:144-152 | One formatted record per hit, in the service's order. |
| Search.SearchSimilarImages | function_app/search.py:114-158 | Without the settings: no call and no results. Otherwise one search is issued. A failure gives no results, and success gives one formatted record per hit, in order. |
| Search.SearchConfigured | function_app/search.py:25-30 | All three search settings are set and non-empty. Otherwise `get_search_client` raises. |
| Search.DefaultSearchAsksForFive | function_app/search.py:114 | A default search asks for five nearest neighbours and five results. |
| Search.StoredDocumentLosesNameAndUrl | function_app/search.py:139-149 | A hit carrying back the fields `upload` stores formats with its id and score but no image name or URL. |
| App.ImageName | function_app/function_app.py:56 | The image name holds no `/` and is a suffix of the URL. It is preceded by `/` when the URL has one, and is the whole URL otherwise. |
| App.ImageNameOfBlobUrl | function_app/function_app.py:56 | The image name of a blob URL is the last segment of the blob name. The account, container and folders do not enter into it. |
| App.FolderBlobName | function_app/function_app.py:56 | A blob `{folder}/{file}` has image name `file`. |
| App.SameFileNameSameId | function_app/function_app.py:56-64 | Two blobs whose names end in the same segment get the same document id, even in different folders, containers or accounts. |
| App.ProcessBlob | function_app/function_app.py:16-81 | A non-BlobCreated event is skipped with no call. A subject that does not extract is rejected with its error and no call. A non-image URL is skipped with no call. Processing and upload happen iff all three gates pass, and then the outcome is that of `App.IndexImage` for the URL. Without indexing there is no upload call. |
| App.IndexImage | function_app/function_app.py:48-77 | The stage either indexes or fails processing. It indexes iff processing succeeds and the embedding has a length. A processing failure keeps the processing error, or is `NoLength` after a success, and keeps only the processing calls, with no upload. Indexing records the URL, the image name and the upload's report, after the processing calls and the upload's calls. |
| Platform.HasLength | function_app/function_app.py:52 | `len()` accepts a string, an array or an object. It raises on `null`, a boolean or a number. |
| App.IndexedIff | function_app/function_app.py:30-73 | An event is indexed iff it is BlobCreated, its subject extracts, the URL is an image, processing succeeds and the embedding has a length. The outcome then carries the URL, the image name and the upload's report. |
| App.UnsizedEmbeddingSkipsUpload | function_app/function_app.py:50-52 | When processing succeeds but the embedding is `null`, a boolean or a number, the handler stops with a processing failure and uploads nothing. |
| App.ProcessingFailureSkipsUpload | function_app/function_app.py:48-77 | A processing failure ends the handler normally, without any upload call. |
| App.UploadFailureIsRecorded | function_app/function_app.py:59-73 | Once every earlier stage passes, the event is indexed whatever the upload reports, with that report recorded. This covers success, a rejected document, a raised error and missing search settings, which give the settings failure. |
| App.HasQueryKey | function_app/function_app.py:106 | `'query' in body` is key membership for objects. It raises (`None`) exactly for null, booleans and numbers. |
| App.QueryEndpoint | function_app/function_app.py:86-137 | The status is 200, 400 or 500. Every 400 makes no call. The 400s are: invalid JSON, a null body, and any body where `'query' in body` is false, each with its own message. The 500s are: a number or boolean body (the `in` raises), an array or string that contains `query` (subscripting raises), and a failed embedding, which comes after one embedding call. Every 500 is the internal error text. 200 holds iff the body is an object with `query` and the embedding succeeds. The reply then carries the query and the default search results, after exactly one embedding call and the search's calls. |
| Example.ExampleSubjectIsImage | function_app/function_app.py:36-56 | The subject `/blobServices/default/containers/photos/blobs/2024/cat.jpg` under account `acct` gives `https://acct.blob.core.windows.net/photos/2024/cat.jpg`. That URL is an image whose file name is `cat.jpg`. |
| Strings.JoinSplit | function_app/functions.py:38-49 | Joining the pieces of a split with the same separator gives back the string. |
| Strings.SplitJoin | function_app/functions.py:49 | Splitting a join of separator-free pieces gives back the pieces. |

## Left out

- **Network and SDK calls.** Calls to the Vision REST API, the Image Analysis SDK, Azure AI Search and Azure OpenAI are parameters (`Platform.Services`). Their behaviour is not modelled.
- **SHA-1.** SHA-1 is a parameter returning a 20-byte digest. Only the UUID5 layout around it is computed.
- **Uniqueness of ids.** The model does not claim that different names get different ids, since that rests on SHA-1. `Search.IdCollisionNeedsHashCollision` states what such a collision requires.
- **Environment variables.** These are the optional fields of `Platform.Config`.
- **Logging.** Logging, `json.dumps` of the event and of the response body, and the HTTP mimetype are not modelled.
- **Event fields.** The handler's outer `except Exception: raise` is not modelled. Of the event, only `event_type` and `subject` are modelled. `event.get_json()` failures are not.
- **`urlparse` in full.** Only the scheme, the `//netloc`, `?` and `#` are modelled. Several steps are not modelled: `;params`, IPv6 host brackets and the `ValueError` `urlparse` can raise. Neither is `urlsplit`'s removal of every tab, carriage return and newline, nor its stripping of leading C0 control characters and spaces. A blob named `b.jp` + tab + `g` is therefore not an image in the model, although Python's path is `/c/b.jpg`.
- Uuid.ParseUuid: accepts only the lowercase canonical 8-4-4-4-12 form. `uuid.UUID` also accepts braces, a `urn:uuid:` prefix, uppercase digits and the unhyphenated form. The only text the code parses is the canonical literal at `function_app/search.py:15`.
- **Case folding.** `str.lower` is modelled for ASCII letters only; other characters are kept unchanged.
- **UTF-8 of lone surrogates.** A Dafny `char` cannot hold a surrogate, so the encode failure Python raises for one cannot arise.
- **Floating point.** Confidences, coordinates and vectors are `real` values or `Json` numbers. No float arithmetic is performed anywhere.
- **Boxes.** Box and point coordinates are integers.
- **Paging.** Errors raised while iterating the paged search results are folded into the single search outcome.
- **`get_search_index_client`.** It is defined but never called by the core, so it is not modelled.
- **Text embedding.** `function_app/llm.py` is a parameter (`Services.embedText`). A failure of `vectorize_text`, including its missing-deployment-name check, is an embedding failure and gives a 500. A missing `AZURE_OPENAI_API_KEY` or `AZURE_OPENAI_ENDPOINT` raises when `llm` is imported, which stops the whole app from loading; that is outside the model.
- **Root `function_app.py`.** This file is an older handler that imports `vectorize_image`, which the functions module does not define. It is not part of this model.
- **Redirects.** Redirects that `requests` follows are not modelled. The reply is the final one, and any status outside 400-599 counts as success, as it does for `raise_for_status`.

=== FILE: analysis.dfy ===
/** Normalisation of an Image Analysis result into plain records
    (`analyze_image` with its helpers `bounding_box_to_dict` and
    `bounding_polygon_to_list`). The service call itself is outside the
    model: its outcome is an input. */
module Analysis {
  import opened Wrappers

  // ---------------------------------------------------------------------------
  // The service's result, as the client library hands it over.

  datatype BoundingBox = BoundingBox(x: int, y: int, width: int, height: int)
  datatype ImagePoint = ImagePoint(x: int, y: int)
  datatype CaptionResult = CaptionResult(text: string, confidence: real)
  datatype DetectedTag = DetectedTag(name: string, confidence: real)
  datatype DenseCaption = DenseCaption(text: string, confidence: real, boundingBox: Option<BoundingBox>)
  datatype DetectedObject = DetectedObject(tags: seq<DetectedTag>, boundingBox: Option<BoundingBox>)
  datatype TextLine = TextLine(text: string, boundingPolygon: Option<seq<ImagePoint>>)
  datatype TextBlock = TextBlock(lines: seq<TextLine>)

  /** A missing section of the result is `None`. */
  datatype ImageAnalysisResult = ImageAnalysisResult(
    caption: Option<CaptionResult>,
    denseCaptions: Option<seq<DenseCaption>>,
    objects: Option<seq<DetectedObject>>,
    tags: Option<seq<DetectedTag>>,
    read: Option<seq<TextBlock>>)

  // ---------------------------------------------------------------------------
  // The plain records the program builds (dictionaries in the source).

  datatype BoxRecord = BoxRecord(x: int, y: int, width: int, height: int)
  datatype PointRecord = PointRecord(x: int, y: int)
  datatype CaptionRecord = CaptionRecord(text: string, confidence: real, boundingBox: Option<BoxRecord>)
  datatype ObjectRecord = ObjectRecord(name: string, confidence: real, boundingBox: Option<BoxRecord>)
  datatype TagRecord = TagRecord(name: string, confidence: real)
  datatype LineRecord = LineRecord(text: string, boundingBox: Option<seq<PointRecord>>)

  datatype AnalysisData = AnalysisData(
    imageUrl: string,
    caption: Option<string>,
    confidence: Option<real>,
    denseCaptions: seq<CaptionRecord>,
    objects: seq<ObjectRecord>,
    tags: seq<TagRecord>,
    text: seq<LineRecord>)

  /** Name and confidence given to an object the service could not label. */
  const UnknownName: string := "unknown"
  const UnknownConfidence: real := 0.0

  // ---------------------------------------------------------------------------

  /** Element-wise image of a list, in order (a list comprehension). */
  function Map<A, B>(f: A -> B, xs: seq<A>): (ys: seq<B>)
    ensures |ys| == |xs|
    ensures forall i :: 0 <= i < |xs| ==> ys[i] == f(xs[i])
  {
    if |xs| == 0 then [] else [f(xs[0])] + Map(f, xs[1..])
  }

  /** `bounding_box_to_dict`. */
  function BoxToRecord(b: Option<BoundingBox>): (r: Option<BoxRecord>)
    ensures r.None? <==> b.None?
    ensures b.Some? ==>
      && r.value.x == b.value.x && r.value.y == b.value.y
      && r.value.width == b.value.width && r.value.height == b.value.height
  {
    match b
    case None => None
    case Some(bb) => Some(BoxRecord(bb.x, bb.y, bb.width, bb.height))
  }

  function PointToRecord(p: ImagePoint): PointRecord
  {
    PointRecord(p.x, p.y)
  }

  /** `bounding_polygon_to_list`. */
  function PolygonToList(polygon: Option<seq<ImagePoint>>): (r: Option<seq<PointRecord>>)
    ensures r.None? <==> polygon.None?
    ensures polygon.Some? ==>
      && |r.value| == |polygon.value|
      && forall i :: 0 <= i < |polygon.value| ==>
           r.value[i].x == polygon.value[i].x && r.value[i].y == polygon.value[i].y
  {
    match polygon
    case None => None
    case Some(points) => Some(Map(PointToRecord, points))
  }

  function CaptionToRecord(c: DenseCaption): CaptionRecord
  {
    CaptionRecord(c.text, c.confidence, BoxToRecord(c.boundingBox))
  }

  /** An object is named by its first tag, or is `unknown` with confidence 0. */
  function ObjectToRecord(o: DetectedObject): (r: ObjectRecord)
    ensures |o.tags| == 0 ==> r.name == UnknownName && r.confidence == UnknownConfidence
    ensures |o.tags| > 0 ==> r.name == o.tags[0].name && r.confidence == o.tags[0].confidence
    ensures r.boundingBox == BoxToRecord(o.boundingBox)
  {
    if |o.tags| > 0 then ObjectRecord(o.tags[0].name, o.tags[0].confidence, BoxToRecord(o.boundingBox))
    else ObjectRecord(UnknownName, UnknownConfidence, BoxToRecord(o.boundingBox))
  }

  function TagToRecord(t: DetectedTag): TagRecord
  {
    TagRecord(t.name, t.confidence)
  }

  function LineToRecord(l: TextLine): LineRecord
  {
    LineRecord(l.text, PolygonToList(l.boundingPolygon))
  }

  /** Number of text lines over all blocks. */
  function LineCount(blocks: seq<TextBlock>): nat
  {
    if |blocks| == 0 then 0 else |blocks[0].lines| + LineCount(blocks[1..])
  }

  /** The nested comprehension over blocks and their lines. */
  function FlattenLines(blocks: seq<TextBlock>): (r: seq<LineRecord>)
    ensures |r| == LineCount(blocks)
  {
    if |blocks| == 0 then [] else Map(LineToRecord, blocks[0].lines) + FlattenLines(blocks[1..])
  }

  /** The body of `analyze_image` once the service has answered. */
  function Normalise(imageUrl: string, res: ImageAnalysisResult): (r: AnalysisData)
    ensures r.imageUrl == imageUrl
    ensures r.caption.None? <==> res.caption.None?
    ensures r.confidence.None? <==> res.caption.None?
    ensures res.caption.Some? ==>
      r.caption == Some(res.caption.value.text) && r.confidence == Some(res.caption.value.confidence)
    ensures |r.denseCaptions| == |res.denseCaptions.GetOr([])|
    ensures |r.objects| == |res.objects.GetOr([])|
    ensures |r.tags| == |res.tags.GetOr([])|
    ensures |r.text| == LineCount(res.read.GetOr([]))
  {
    AnalysisData(
      imageUrl,
      if res.caption.Some? then Some(res.caption.value.text) else None,
      if res.caption.Some? then Some(res.caption.value.confidence) else None,
      Map(CaptionToRecord, res.denseCaptions.GetOr([])),
      Map(ObjectToRecord, res.objects.GetOr([])),
      Map(TagToRecord, res.tags.GetOr([])),
      FlattenLines(res.read.GetOr([])))
  }

  /** `analyze_image`: a failed service call propagates unchanged. */
  function AnalyzeImage<E>(imageUrl: string, response: Result<ImageAnalysisResult, E>): (r: Result<AnalysisData, E>)
    ensures r.Failure? <==> response.Failure?
    ensures response.Failure? ==> r.error == response.error
    ensures r.Success? ==> r.value.imageUrl == imageUrl
    ensures response.Success? ==> r == Success(Normalise(imageUrl, response.value))
  {
    match response
    case Failure(e) => Failure(e)
    case Success(res) => Success(Normalise(imageUrl, res))
  }

  // ---------------------------------------------------------------------------

  /** Flattening distributes over concatenation of block lists. */
  lemma {:induction false} FlattenAppend(xs: seq<TextBlock>, ys: seq<TextBlock>)
    ensures FlattenLines(xs + ys) == FlattenLines(xs) + FlattenLines(ys)
    ensures LineCount(xs + ys) == LineCount(xs) + LineCount(ys)
    decreases |xs|
  {
    if |xs| == 0 {
      assert xs + ys == ys;
    } else {
      assert (xs + ys)[1..] == xs[1..] + ys;
      FlattenAppend(xs[1..], ys);
    }
  }

  /** Line `k` of block `j` lands at position (lines of earlier blocks) + `k`:
      every line is kept, in block order and then line order. */
  lemma FlattenOrder(blocks: seq<TextBlock>, j: nat, k: nat)
    requires j < |blocks| && k < |blocks[j].lines|
    ensures LineCount(blocks[..j]) + k < |FlattenLines(blocks)|
    ensures FlattenLines(blocks)[LineCount(blocks[..j]) + k] == LineToRecord(blocks[j].lines[k])
  {
    var before := blocks[..j];
    var rest := blocks[j..];
    assert blocks == before + rest;
    FlattenAppend(before, rest);
    assert rest[0] == blocks[j];
  }

  /** Normalisation keeps every dense caption, object and tag, in order, and
      each object record follows the first-tag-or-unknown rule. */
  lemma NormalisePreservesOrder(imageUrl: string, res: ImageAnalysisResult)
    ensures var r := Normalise(imageUrl, res);
      && (forall i :: 0 <= i < |r.denseCaptions| ==>
            r.denseCaptions[i].text == res.denseCaptions.value[i].text
            && r.denseCaptions[i].confidence == res.denseCaptions.value[i].confidence
            && r.denseCaptions[i].boundingBox == BoxToRecord(res.denseCaptions.value[i].boundingBox))
      && (forall i :: 0 <= i < |r.objects| ==>
            var o := res.objects.value[i];
            r.objects[i].boundingBox == BoxToRecord(o.boundingBox)
            && (|o.tags| == 0 ==> r.objects[i].name == UnknownName && r.objects[i].confidence == UnknownConfidence)
            && (|o.tags| > 0 ==> r.objects[i].name == o.tags[0].name && r.objects[i].confidence == o.tags[0].confidence))
      && (forall i :: 0 <= i < |r.tags| ==>
            r.tags[i].name == res.tags.value[i].name && r.tags[i].confidence == res.tags.value[i].confidence)
  {
  }

  /** Normalisation keeps every text line of every block, in block order and
      then line order: line `k` of block `j` is record number (lines of the
      earlier blocks) + `k`. */
  lemma NormaliseKeepsTextOrder(imageUrl: string, res: ImageAnalysisResult, j: nat, k: nat)
    requires res.read.Some? && j < |res.read.value| && k < |res.read.value[j].lines|
    ensures var blocks := res.read.value;
      var r := Normalise(imageUrl, res);
      && LineCount(blocks[..j]) + k < |r.text|
      && r.text[LineCount(blocks[..j]) + k] == LineToRecord(blocks[j].lines[k])
      && r.text[LineCount(blocks[..j]) + k].text == blocks[j].lines[k].text
  {
    FlattenOrder(res.read.value, j, k);
  }

  /** A result with no sections at all normalises to empty lists and no caption. */
  lemma EmptyResultNormalisesEmpty(imageUrl: string)
    ensures Normalise(imageUrl, ImageAnalysisResult(None, None, None, None, None))
         == AnalysisData(imageUrl, None, None, [], [], [], [])
  {
  }
}

=== FILE: app.dfy ===
/** The two Azure Functions entry points as plans: `process_blob`, a gate
    sequence from an Event Grid event to an index upload, and
    `query_endpoint`, the status-code decision table of the search route. */
module App {
  import opened Wrappers
  import opened Strings
  import opened Subject
  import opened Eligibility
  import opened Platform
  import opened Enrichment
  import opened Search
  import opened Utf8
  import opened Uuid

  // ---------------------------------------------------------------------------
  // process_blob

  const BlobCreated: string := "Microsoft.Storage.BlobCreated"

  /** The parts of an Event Grid event the handler acts on. */
  datatype Event = Event(eventType: string, subject: string)

  /** Where the handler stopped. Every outcome is a normal return: the
      handler logs failures and does not raise. */
  datatype BlobOutcome =
    | SkippedEventType(eventType: string)
    | SubjectRejected(reason: SubjectError)
    | SkippedNonImage(blobUrl: string)
    | ProcessingFailed(blobUrl: string, error: Error)
    | Indexed(blobUrl: string, imageName: string, report: Report)

  /** The file name of a blob URL: its last `/`-segment. */
  function ImageName(blobUrl: string): (name: string)
    ensures '/' !in name
    ensures |name| <= |blobUrl| && blobUrl[|blobUrl| - |name|..] == name
    ensures '/' in blobUrl ==> |name| < |blobUrl| && blobUrl[|blobUrl| - |name| - 1] == '/'
    ensures '/' !in blobUrl ==> name == blobUrl
  {
    LastPiece(blobUrl, '/');
    SeveralPieces(blobUrl, '/');
    Last(Split(blobUrl, '/'))
  }

  /** The stage of `process_blob` after the gates: process the image, take
      the length of its embedding for the log, upload. Processing failures,
      including the `TypeError` of `len` on an embedding that has no length,
      end the stage before any upload. */
  function IndexImage(url: string, config: Config, services: Services): (r: Traced<BlobOutcome>)
    ensures r.result.Indexed? || r.result.ProcessingFailed?
    ensures var processed := ProcessImageComplete(url, config, services);
      r.result.Indexed? <==> processed.result.Success? && HasLength(processed.result.value.vectorEmbedding)
    ensures var processed := ProcessImageComplete(url, config, services);
      r.result.ProcessingFailed? ==>
        && r == Traced(ProcessingFailed(url, r.result.error), processed.calls)
        && (processed.result.Failure? ==> r.result.error == processed.result.error)
        && (processed.result.Success? ==> r.result.error == NoLength)
        && forall c :: c in r.calls ==> !c.UploadDocuments?
    ensures var processed := ProcessImageComplete(url, config, services);
      r.result.Indexed? ==>
        var uploaded := Upload(ImageName(url), url, processed.result.value.vectorEmbedding, config, services);
        r == Traced(Indexed(url, ImageName(url), uploaded.result), processed.calls + uploaded.calls)
  {
    var processed := ProcessImageComplete(url, config, services);
    match processed.result
    case Failure(e) => Traced(ProcessingFailed(url, e), processed.calls)
    case Success(data) =>
      if !HasLength(data.vectorEmbedding) then Traced(ProcessingFailed(url, NoLength), processed.calls)
      else
        var name := ImageName(url);
        var uploaded := Upload(name, url, data.vectorEmbedding, config, services);
        Traced(Indexed(url, name, uploaded.result), processed.calls + uploaded.calls)
  }

  /** `process_blob`. Every outcome is a normal return. */
  function ProcessBlob(event: Event, config: Config, services: Services): (r: Traced<BlobOutcome>)
    ensures event.eventType != BlobCreated ==> r == Traced(SkippedEventType(event.eventType), [])
    ensures r.result.SubjectRejected? <==>
      event.eventType == BlobCreated && ExtractBlobUrl(event.subject, config.storageAccount).Failure?
    ensures r.result.SubjectRejected? ==>
      r.result.reason == ExtractBlobUrl(event.subject, config.storageAccount).error
    ensures r.result.SkippedNonImage? <==>
      && event.eventType == BlobCreated
      && ExtractBlobUrl(event.subject, config.storageAccount).Success?
      && !IsImageFile(ExtractBlobUrl(event.subject, config.storageAccount).value)
    ensures r.result.SubjectRejected? || r.result.SkippedNonImage? ==> r.calls == []
    ensures r.result.Indexed? || r.result.ProcessingFailed? <==>
      && event.eventType == BlobCreated
      && ExtractBlobUrl(event.subject, config.storageAccount).Success?
      && IsImageFile(ExtractBlobUrl(event.subject, config.storageAccount).value)
    ensures r.result.Indexed? || r.result.ProcessingFailed? ==>
      r == IndexImage(ExtractBlobUrl(event.subject, config.storageAccount).value, config, services)
    ensures !r.result.Indexed? ==> forall c :: c in r.calls ==> !c.UploadDocuments?
  {
    if event.eventType != BlobCreated then Traced(SkippedEventType(event.eventType), [])
    else
      match ExtractBlobUrl(event.subject, config.storageAccount)
      case Failure(e) => Traced(SubjectRejected(e), [])
      case Success(url) =>
        if !IsImageFile(url) then Traced(SkippedNonImage(url), [])
        else IndexImage(url, config, services)
  }

  /** Indexing happens exactly when every gate passes, processing succeeds
      and the embedding has a length; it records the URL, the image name and
      the upload's report. */
  lemma IndexedIff(event: Event, config: Config, services: Services)
    ensures var r := ProcessBlob(event, config, services);
      r.result.Indexed? <==>
        && event.eventType == BlobCreated
        && ExtractBlobUrl(event.subject, config.storageAccount).Success?
        && IsImageFile(ExtractBlobUrl(event.subject, config.storageAccount).value)
        && ProcessImageComplete(ExtractBlobUrl(event.subject, config.storageAccount).value, config, services).result.Success?
        && HasLength(ProcessImageComplete(ExtractBlobUrl(event.subject, config.storageAccount).value, config, services).result.value.vectorEmbedding)
    ensures var r := ProcessBlob(event, config, services);
      r.result.Indexed? ==>
        var url := ExtractBlobUrl(event.subject, config.storageAccount).value;
        var processed := ProcessImageComplete(url, config, services);
        var uploaded := Upload(ImageName(url), url, processed.result.value.vectorEmbedding, config, services);
        && r.result == Indexed(url, ImageName(url), uploaded.result)
        && r.calls == processed.calls + uploaded.calls
  {
    if event.eventType == BlobCreated && ExtractBlobUrl(event.subject, config.storageAccount).Success? {
      var url := ExtractBlobUrl(event.subject, config.storageAccount).value;
      if IsImageFile(url) {
        assert ProcessBlob(event, config, services) == IndexImage(url, config, services);
      }
    }
  }

  // ---------------------------------------------------------------------------
  // query_endpoint

  const InvalidJsonMessage: string := "Invalid JSON in request body"
  const BodyRequiredMessage: string := "Request body is required"
  const MissingQueryMessage: string := "Missing required field 'query' in request body"
  const InternalErrorMessage: string := "Internal server error"
  const ReceivedMessage: string := "Query received successfully"
  const QueryKey: string := "query"

  /** The request body as `req.get_json()` sees it. */
  datatype RequestBody = InvalidJson | Body(json: Json)

  datatype ResponseBody =
    | Text(text: string)
    | QueryReply(message: string, query: Json, similarImages: seq<SimilarImage>)

  datatype HttpResponse = HttpResponse(status: int, body: ResponseBody)

  /** Python's `'query' in body`: key membership for an object, element
      membership for an array, substring for a string; `None` where the
      operator raises `TypeError` (numbers and booleans). */
  function HasQueryKey(body: Json): (r: Option<bool>)
    ensures r.None? <==> body.JNull? || body.JBool? || body.JNumber?
    ensures body.JObject? ==> r == Some(QueryKey in body.fields)
  {
    match body
    case JObject(fields) => Some(QueryKey in fields)
    case JArray(items) => Some(JString(QueryKey) in items)
    case JString(s) => Some(IsInfix(QueryKey, s))
    case _ => None
  }

  function Respond(status: int, text: string): HttpResponse
  {
    HttpResponse(status, Text(text))
  }

  /** `query_endpoint`. */
  function QueryEndpoint(request: RequestBody, config: Config, services: Services): (r: Traced<HttpResponse>)
    ensures r.result.status in {200, 400, 500}
    ensures r.result.status == 400 ==> r.calls == []
    ensures request == InvalidJson ==> r == Traced(Respond(400, InvalidJsonMessage), [])
    ensures request == Body(JNull) ==> r == Traced(Respond(400, BodyRequiredMessage), [])
    ensures request.Body? && request.json.JObject? && QueryKey !in request.json.fields ==>
      r == Traced(Respond(400, MissingQueryMessage), [])
    ensures r.result.status == 500 ==> r.result == Respond(500, InternalErrorMessage)
    ensures request.Body? && request.json != JNull && HasQueryKey(request.json).None? ==>
      r == Traced(Respond(500, InternalErrorMessage), [])
    ensures request.Body? && HasQueryKey(request.json) == Some(false) ==>
      r == Traced(Respond(400, MissingQueryMessage), [])
    ensures request.Body? && !request.json.JObject? && HasQueryKey(request.json) == Some(true) ==>
      r == Traced(Respond(500, InternalErrorMessage), [])
    ensures (&& request.Body? && request.json.JObject? && QueryKey in request.json.fields
             && services.embedText(request.json.fields[QueryKey]).Failure?) ==>
      r == Traced(Respond(500, InternalErrorMessage), [EmbedText(request.json.fields[QueryKey])])
    ensures r.result.status == 200 <==>
      && request.Body? && request.json.JObject? && QueryKey in request.json.fields
      && services.embedText(request.json.fields[QueryKey]).Success?
    ensures r.result.status == 200 ==>
      var query := request.json.fields[QueryKey];
      var vector := services.embedText(query).value;
      && r.result.body == QueryReply(ReceivedMessage, query, SearchSimilarImages(vector, DefaultTopK, config, services).result)
      && r.calls == [EmbedText(query)] + SearchSimilarImages(vector, DefaultTopK, config, services).calls
  {
    match request
    case InvalidJson => Traced(Respond(400, InvalidJsonMessage), [])
    case Body(body) =>
      if body.JNull? then Traced(Respond(400, BodyRequiredMessage), [])
      else
        match HasQueryKey(body)
        case None => Traced(Respond(500, InternalErrorMessage), [])
        case Some(present) =>
          if !present then Traced(Respond(400, MissingQueryMessage), [])
          else if !body.JObject? then Traced(Respond(500, InternalErrorMessage), [])
          else
            var query := body.fields[QueryKey];
            match services.embedText(query)
            case Failure(_) => Traced(Respond(500, InternalErrorMessage), [EmbedText(query)])
            case Success(vector) =>
              var found := SearchSimilarImages(vector, DefaultTopK, config, services);
              Traced(HttpResponse(200, QueryReply(ReceivedMessage, query, found.result)),
                     [EmbedText(query)] + found.calls)
  }

  // ---------------------------------------------------------------------------

  /** The image name of a blob URL is the last segment of the blob name: the
      account, container and folders do not enter into it. */
  lemma ImageNameOfBlobUrl(account: string, loc: BlobLocation)
    ensures ImageName(BlobUrl(account, loc)) == Last(Split(loc.blobName, '/'))
  {
    var head := "https://" + BlobHost(account) + "/" + loc.container;
    assert BlobUrl(account, loc) == head + ['/'] + loc.blobName;
    LastSplitAfter(head, loc.blobName, '/');
  }

  /** Blobs whose names end in the same segment, in any folder, container or
      account, get the same document id. */
  lemma SameFileNameSameId(a1: string, l1: BlobLocation, a2: string, l2: BlobLocation, sha1: seq<byte> -> Digest)
    requires Last(Split(l1.blobName, '/')) == Last(Split(l2.blobName, '/'))
    ensures GenerateDocumentId(ImageName(BlobUrl(a1, l1)), sha1) == GenerateDocumentId(ImageName(BlobUrl(a2, l2)), sha1)
  {
    ImageNameOfBlobUrl(a1, l1);
    ImageNameOfBlobUrl(a2, l2);
  }

  /** A processing failure ends the handler before any upload, and the
      handler still returns normally. */
  lemma ProcessingFailureSkipsUpload(event: Event, config: Config, services: Services)
    requires event.eventType == BlobCreated
    requires ExtractBlobUrl(event.subject, config.storageAccount).Success?
    requires IsImageFile(ExtractBlobUrl(event.subject, config.storageAccount).value)
    requires ProcessImageComplete(ExtractBlobUrl(event.subject, config.storageAccount).value, config, services).result.Failure?
    ensures ProcessBlob(event, config, services).result.ProcessingFailed?
    ensures forall c :: c in ProcessBlob(event, config, services).calls ==> !c.UploadDocuments?
  {
  }

  /** Whatever the upload reports (success, a rejected document, a raised
      error or missing settings), the handler returns normally with that
      report recorded, once every earlier stage has passed. */
  lemma UploadFailureIsRecorded(event: Event, config: Config, services: Services)
    requires event.eventType == BlobCreated
    requires ExtractBlobUrl(event.subject, config.storageAccount).Success?
    requires IsImageFile(ExtractBlobUrl(event.subject, config.storageAccount).value)
    requires ProcessImageComplete(ExtractBlobUrl(event.subject, config.storageAccount).value, config, services).result.Success?
    requires HasLength(ProcessImageComplete(ExtractBlobUrl(event.subject, config.storageAccount).value, config, services).result.value.vectorEmbedding)
    ensures var url := ExtractBlobUrl(event.subject, config.storageAccount).value;
      var data := ProcessImageComplete(url, config, services).result.value;
      var r := ProcessBlob(event, config, services);
      && r.result.Indexed?
      && r.result.report == Upload(ImageName(url), url, data.vectorEmbedding, config, services).result
      && (!SearchConfigured(config) ==> r.result.report == Failed(SearchConfigMessage))
  {
  }

  /** A processing success whose embedding has no length (`null`, a boolean
      or a number) ends the handler before any upload. */
  lemma UnsizedEmbeddingSkipsUpload(event: Event, config: Config, services: Services)
    requires event.eventType == BlobCreated
    requires ExtractBlobUrl(event.subject, config.storageAccount).Success?
    requires IsImageFile(ExtractBlobUrl(event.subject, config.storageAccount).value)
    ensures var url := ExtractBlobUrl(event.subject, config.storageAccount).value;
      var processed := ProcessImageComplete(url, config, services).result;
      processed.Success? && !HasLength(processed.value.vectorEmbedding) ==>
        && ProcessBlob(event, config, services).result == ProcessingFailed(url, NoLength)
        && forall c :: c in ProcessBlob(event, config, services).calls ==> !c.UploadDocuments?
  {
  }

  /** The image name of a blob in a folder is its file name. */
  lemma FolderBlobName(account: string, container: string, folder: string, file: string)
    requires '/' !in file
    ensures ImageName("https://" + account + ".blob.core.windows.net" + "/" + container + "/" + (folder + "/" + file)) == file
  {
    BlobUrlShape(account, container, folder + "/" + file);
    ImageNameOfBlobUrl(account, BlobLocation(container, folder + "/" + file));
    SplitAppend(folder, file, '/');
    SplitNoSeparator(file, '/');
  }
}

=== FILE: eligibility.dfy ===
/** The image-eligibility filter `is_image_file`: the URL's path is
    lower-cased, the text after its last `.` is the extension, and the
    extension must be one of eight image types. */
module Eligibility {
  import opened Strings
  import opened Subject

  const ImageExtensions: set<string> := {"jpg", "jpeg", "png", "gif", "bmp", "webp", "tiff", "tif"}

  // ---------------------------------------------------------------------------
  // The path component, as `urllib.parse.urlsplit` finds it.

  predicate IsAsciiLetter(ch: char)
  {
    'a' <= ch <= 'z' || 'A' <= ch <= 'Z'
  }

  predicate IsSchemeChar(ch: char)
  {
    IsAsciiLetter(ch) || '0' <= ch <= '9' || ch == '+' || ch == '-' || ch == '.'
  }

  /** Index of the first character of `s` that is in `stops`, or `|s|`. */
  function FirstOf(s: string, stops: set<char>): (i: nat)
    ensures i <= |s|
    ensures forall j :: 0 <= j < i ==> s[j] !in stops
    ensures i < |s| ==> s[i] in stops
  {
    if |s| == 0 || s[0] in stops then 0 else 1 + FirstOf(s[1..], stops)
  }

  /** Drops a leading `scheme:` when everything before the first `:` is a
      valid scheme starting with a letter. */
  function StripScheme(url: string): string
  {
    var i := FirstOf(url, {':'});
    if 0 < i < |url| && IsAsciiLetter(url[0]) && forall k :: 0 <= k < i ==> IsSchemeChar(url[k])
    then url[i + 1..]
    else url
  }

  /** Drops a `//netloc`, which ends at the first `/`, `?` or `#`. */
  function StripNetloc(rest: string): string
  {
    if HasPrefix(rest, "//") then
      var tail := rest[2..];
      tail[FirstOf(tail, {'/', '?', '#'})..]
    else rest
  }

  /** Everything before the first `c`, or all of `s`. */
  function Before(s: string, c: char): (r: string)
    ensures c !in r
  {
    s[..FirstOf(s, {c})]
  }

  /** `urlparse(url).path`: no scheme, no netloc, no fragment, no query.
      The path holds no `#` and no `?`. */
  function UrlPath(url: string): (path: string)
    ensures '#' !in path && '?' !in path
  {
    Before(Before(StripNetloc(StripScheme(url)), '#'), '?')
  }

  // ---------------------------------------------------------------------------

  /** The lower-cased text after the last `.`, or `""` without a `.`. */
  function Extension(path: string): string
  {
    if '.' in path then Last(Split(ToLower(path), '.')) else ""
  }

  predicate IsImagePath(path: string)
  {
    Extension(path) in ImageExtensions
  }

  /** `is_image_file`: the URL's path has a last dot, and the lower-cased text
      after it is one of the image extensions. */
  predicate IsImageFile(url: string)
  {
    IsImagePath(UrlPath(url))
  }

  /** Position `k` holds the last `.` of `p`. */
  predicate LastDotAt(p: string, k: int)
  {
    0 <= k < |p| && p[k] == '.' && '.' !in p[k + 1..]
  }

  lemma LowerKeepsDots(p: string)
    ensures forall j :: 0 <= j < |p| ==> (ToLower(p)[j] == '.' <==> p[j] == '.')
    ensures '.' in p <==> '.' in ToLower(p)
  {
    var l := ToLower(p);
    if '.' in l {
      var j :| 0 <= j < |l| && l[j] == '.';
      assert p[j] == '.';
    }
  }

  lemma LowerSlice(p: string, k: nat)
    requires k <= |p|
    ensures ToLower(p)[k..] == ToLower(p[k..])
  {
  }

  /** The extension of a dotted path is the lower-cased text after its last dot. */
  lemma ExtensionAfterLastDot(p: string)
    requires '.' in p
    ensures exists k :: LastDotAt(p, k) && Extension(p) == ToLower(p[k + 1..])
  {
    var l := ToLower(p);
    LowerKeepsDots(p);
    SeveralPieces(l, '.');
    LastPiece(l, '.');
    var t := Last(Split(l, '.'));
    var k := |p| - |t| - 1;
    assert l[k] == '.';
    assert l[k + 1..] == t;
    LowerSlice(p, k + 1);
    forall j | k + 1 <= j < |p|
      ensures p[j] != '.'
    {
      assert l[j] == t[j - k - 1];
    }
    assert LastDotAt(p, k);
  }

  /** A path has at most one last dot. */
  lemma LastDotUnique(p: string, k: int, m: int)
    requires LastDotAt(p, k) && LastDotAt(p, m)
    ensures k == m
  {
    forall j | k < j < |p|
      ensures p[j] != '.'
    {
      assert p[k + 1..][j - k - 1] == p[j];
    }
    forall j | m < j < |p|
      ensures p[j] != '.'
    {
      assert p[m + 1..][j - m - 1] == p[j];
    }
  }

  /** `is_image_file` on a path: true iff the path has a dot and the
      lower-cased text after its last dot is an allowed image extension. */
  lemma ImagePathIff(p: string)
    ensures IsImagePath(p) <==>
      exists k :: LastDotAt(p, k) && ToLower(p[k + 1..]) in ImageExtensions
  {
    if '.' in p {
      ExtensionAfterLastDot(p);
      var k :| LastDotAt(p, k) && Extension(p) == ToLower(p[k + 1..]);
      forall m | LastDotAt(p, m)
        ensures m == k
      {
        LastDotUnique(p, k, m);
      }
    }
  }

  /** `is_image_file` on a URL: true iff the URL's path has a last dot after
      which the lower-cased text is an allowed image extension. */
  lemma ImageFileIff(url: string)
    ensures IsImageFile(url) <==>
      exists k :: LastDotAt(UrlPath(url), k) && ToLower(UrlPath(url)[k + 1..]) in ImageExtensions
  {
    ImagePathIff(UrlPath(url));
  }

  /** A path with no dot, or whose last character is a dot, is never an image. */
  lemma NoExtensionNotImage(p: string)
    requires '.' !in p || (|p| > 0 && p[|p| - 1] == '.')
    ensures !IsImagePath(p)
  {
    if '.' in p {
      ImagePathIff(p);
      assert LastDotAt(p, |p| - 1);
      forall k | LastDotAt(p, k)
        ensures ToLower(p[k + 1..]) !in ImageExtensions
      {
        LastDotUnique(p, k, |p| - 1);
      }
    }
  }

  /** Eligibility ignores ASCII case. */
  lemma CaseIgnored(p: string, q: string)
    requires ToLower(p) == ToLower(q)
    ensures IsImagePath(p) == IsImagePath(q)
  {
    LowerKeepsDots(p);
    LowerKeepsDots(q);
  }

  // ---------------------------------------------------------------------------
  // The path of a blob URL.

  lemma FirstOfSkip(a: string, b: string, stops: set<char>)
    requires forall j :: 0 <= j < |a| ==> a[j] !in stops
    ensures FirstOf(a + b, stops) == |a| + FirstOf(b, stops)
    decreases |a|
  {
    if |a| > 0 {
      assert (a + b)[0] == a[0] && a[0] !in stops;
      assert (a + b)[1..] == a[1..] + b;
      FirstOfSkip(a[1..], b, stops);
      assert FirstOf(a + b, stops) == 1 + FirstOf((a + b)[1..], stops);
    } else {
      assert a + b == b;
    }
  }

  lemma StripSchemeOf(scheme: string, rest: string)
    requires |scheme| > 0 && forall j :: 0 <= j < |scheme| ==> IsAsciiLetter(scheme[j])
    ensures StripScheme(scheme + [':'] + rest) == rest
  {
    var url := scheme + [':'] + rest;
    assert url == scheme + ([':'] + rest);
    FirstOfSkip(scheme, [':'] + rest, {':'});
    assert url[|scheme|] == ':';
    assert forall k :: 0 <= k < |scheme| ==> url[k] == scheme[k];
    assert url[|scheme| + 1..] == rest;
  }

  lemma StripNetlocOf(host: string, path: string)
    requires forall j :: 0 <= j < |host| ==> host[j] !in {'/', '?', '#'}
    requires |path| > 0 && path[0] == '/'
    ensures StripNetloc("//" + host + path) == path
  {
    var r := "//" + host + path;
    assert r[2..] == host + path;
    FirstOfSkip(host, path, {'/', '?', '#'});
  }

  lemma BeforeAbsent(s: string, c: char)
    requires c !in s
    ensures Before(s, c) == s
  {
  }

  /** For `{scheme}://{host}{path}` with a letters-only scheme, a host free of
      `/`, `?`, `#` and a path free of `?`, `#` that starts with `/`, the
      path is exactly `path`. */
  lemma UrlPathOf(scheme: string, host: string, path: string)
    requires |scheme| > 0 && forall j :: 0 <= j < |scheme| ==> IsAsciiLetter(scheme[j])
    requires forall j :: 0 <= j < |host| ==> host[j] !in {'/', '?', '#'}
    requires |path| > 0 && path[0] == '/' && '?' !in path && '#' !in path
    ensures UrlPath(scheme + "://" + host + path) == path
  {
    var afterScheme := "//" + host + path;
    assert scheme + "://" + host + path == scheme + [':'] + afterScheme;
    StripSchemeOf(scheme, afterScheme);
    StripNetlocOf(host, path);
    BeforeAbsent(path, '#');
    BeforeAbsent(path, '?');
  }

  /** Eligibility of a blob URL is decided by the blob name alone: neither the
      account, the container nor the folders of the name matter. */
  lemma BlobUrlEligibility(account: string, loc: BlobLocation)
    requires forall j :: 0 <= j < |account| ==> account[j] !in {'/', '?', '#'}
    requires '?' !in loc.container + loc.blobName && '#' !in loc.container + loc.blobName
    ensures IsImageFile(BlobUrl(account, loc)) <==> IsImagePath(loc.blobName)
  {
    var host := BlobHost(account);
    var path := "/" + loc.container + "/" + loc.blobName;
    var scheme: string := "https";
    assert "https://" == scheme + "://";
    assert BlobUrl(account, loc) == scheme + "://" + host + path;
    forall j | 0 <= j < |scheme|
      ensures IsAsciiLetter(scheme[j])
    {
    }
    forall j | 0 <= j < |host|
      ensures host[j] !in {'/', '?', '#'}
    {
      if j >= |account| {
        var d: string := ".blob.core.windows.net";
        assert host == account + d;
        assert host[j] == d[j - |account|];
      }
    }
    assert '?' !in path && '#' !in path by {
      assert path == "/" + (loc.container + "/" + loc.blobName);
    }
    UrlPathOf(scheme, host, path);
    TailDecidesImage("/" + loc.container + "/", loc.blobName);
  }

  /** Whether `a + b` is an image path is decided by `b` when `a` ends in `/`. */
  lemma TailDecidesImage(a: string, b: string)
    requires |a| > 0 && a[|a| - 1] == '/'
    ensures IsImagePath(a + b) <==> IsImagePath(b)
  {
    if '.' in b {
      DottedTailExtension(a, b);
    } else if '.' in a + b {
      UndottedTail(a, b);
    }
  }

  /** A dot in the tail puts the last dot of the whole path in the tail. */
  lemma DottedTailExtension(a: string, b: string)
    requires '.' in b
    ensures Extension(a + b) == Extension(b)
  {
    var k := LastDot(b);
    DottedTail(a, b, k);
    SameTailSameExtension(a + b, b, |a| + k, k);
  }

  /** Two paths whose text after the last dot agrees have the same extension. */
  lemma SameTailSameExtension(p: string, q: string, m: int, k: int)
    requires LastDotAt(p, m) && LastDotAt(q, k) && p[m + 1..] == q[k + 1..]
    ensures Extension(p) == Extension(q)
  {
    ExtensionAtLastDot(p, m);
    ExtensionAtLastDot(q, k);
  }

  /** The position of the last `.` of a dotted path. */
  function LastDot(p: string): (k: int)
    requires '.' in p
    ensures LastDotAt(p, k)
    decreases |p|
  {
    if p[|p| - 1] == '.' then |p| - 1
    else
      var q := p[..|p| - 1];
      assert '.' in q by {
        var i :| 0 <= i < |p| && p[i] == '.';
        assert q[i] == '.';
      }
      var k := LastDot(q);
      assert p[k + 1..] == q[k + 1..] + [p[|p| - 1]];
      k
  }

  /** The extension is the lower-cased text after the last dot. */
  lemma ExtensionAtLastDot(p: string, k: int)
    requires LastDotAt(p, k)
    ensures Extension(p) == ToLower(p[k + 1..])
  {
    assert '.' in p;
    ExtensionAfterLastDot(p);
    var m :| LastDotAt(p, m) && Extension(p) == ToLower(p[m + 1..]);
    LastDotUnique(p, k, m);
  }

  lemma DottedTail(a: string, b: string, k: int)
    requires LastDotAt(b, k)
    ensures LastDotAt(a + b, |a| + k) && (a + b)[|a| + k + 1..] == b[k + 1..]
  {
    assert (a + b)[|a| + k + 1..] == b[k + 1..];
  }

  lemma UndottedTail(a: string, b: string)
    requires |a| > 0 && a[|a| - 1] == '/'
    requires '.' !in b && '.' in a + b
    ensures Extension(a + b) !in ImageExtensions
  {
    var p := a + b;
    ExtensionAfterLastDot(p);
    var m :| LastDotAt(p, m) && Extension(p) == ToLower(p[m + 1..]);
    assert forall j :: |a| <= j < |p| ==> p[j] == b[j - |a|];
    assert m < |a| - 1;
    var e := ToLower(p[m + 1..]);
    assert e[|a| - m - 2] == LowerChar(p[|a| - 1]);
    NoSlashExtensions(e);
  }

  /** No allowed extension contains a `/`. */
  lemma NoSlashExtensions(e: string)
    requires '/' in e
    ensures e !in ImageExtensions
  {
  }
}

=== FILE: enrichment.dfy ===
/** Enrichment of one image: the vectorisation request, the analysis call and
    the merge of the two into one record (`vectorize_image_embedding`,
    `get_image_analysis_client` and `process_image_complete`). */
module Enrichment {
  import opened Wrappers
  import opened Strings
  import opened Analysis
  import opened Platform

  const VectorizePath: string := "/computervision/retrieval:vectorizeImage"
  const ApiVersion: string := "2024-02-01"
  const ModelVersion: string := "2023-04-15"
  const VisionConfigMessage: string :=
    "AZURE_AI_VISION_ENDPOINT and AZURE_AI_VISION_KEY environment variables must be set"

  /** Both the Vision endpoint and key are set and non-empty. */
  predicate VisionConfigured(config: Config)
  {
    IsSet(config.visionEndpoint) && IsSet(config.visionKey)
  }

  /** The endpoint without its trailing slashes, then the vectorisation path. */
  function VectorizeUrl(endpoint: string): (url: string)
    ensures |url| >= |VectorizePath|
    ensures url[|url| - |VectorizePath|..] == VectorizePath
    ensures var base := url[..|url| - |VectorizePath|];
      && base <= endpoint
      && (forall i :: |base| <= i < |endpoint| ==> endpoint[i] == '/')
      && (|base| == 0 || base[|base| - 1] != '/')
  {
    var base := RStrip(endpoint, '/');
    assert (base + VectorizePath)[..|base|] == base;
    base + VectorizePath
  }

  /** The vector record `vectorize_image_embedding` returns. */
  datatype VectorRecord = VectorRecord(imageUrl: string, vector: Json, modelVersion: string, apiVersion: string)

  /** `raise_for_status`: client errors (4xx) and server errors (5xx) raise. */
  predicate RaisesForStatus(status: int)
  {
    400 <= status < 600
  }

  /** `vector_data.get("vector", [])`, which raises on anything but an object. */
  function VectorField(body: Json): (r: Result<Json, Error>)
    ensures r.Success? <==> body.JObject?
    ensures r.Failure? ==> r.error == ResponseNotObject
    ensures body.JObject? && "vector" in body.fields ==> r.value == body.fields["vector"]
    ensures body.JObject? && "vector" !in body.fields ==> r.value == JArray([])
  {
    match body
    case JObject(fields) => Success(Lookup(fields, "vector").GetOr(JArray([])))
    case _ => Failure(ResponseNotObject)
  }

  /** Interpretation of the service's reply to the vectorisation POST. */
  function ReadReply(imageUrl: string, reply: HttpReply): (r: Result<VectorRecord, Error>)
    ensures reply.ConnectionFailed? ==> r == Failure(RequestFailed(reply.reason))
    ensures reply.Reply? && RaisesForStatus(reply.status) ==> r == Failure(HttpStatus(reply.status))
    ensures r.Success? <==>
      reply.Reply? && !RaisesForStatus(reply.status) && reply.body.Some? && reply.body.value.JObject?
    ensures r.Success? ==>
      && r.value.imageUrl == imageUrl
      && r.value.vector == VectorField(reply.body.value).value
      && r.value.modelVersion == ModelVersion
      && r.value.apiVersion == ApiVersion
  {
    match reply
    case ConnectionFailed(reason) => Failure(RequestFailed(reason))
    case Reply(status, body) =>
      if RaisesForStatus(status) then Failure(HttpStatus(status))
      else if body.None? then Failure(ResponseNotJson)
      else
        var vector :- VectorField(body.value);
        Success(VectorRecord(imageUrl, vector, ModelVersion, ApiVersion))
  }

  /** The request sent for an image under a configuration that has both
      settings. */
  function VectorizeRequestFor(imageUrl: string, config: Config): VectorizeRequest
    requires VisionConfigured(config)
  {
    VectorizeRequest(VectorizeUrl(config.visionEndpoint.value), config.visionKey.value,
                     ApiVersion, ModelVersion, imageUrl)
  }

  /** `vectorize_image_embedding`. */
  function Vectorize(imageUrl: string, config: Config, services: Services): (r: Traced<Result<VectorRecord, Error>>)
    ensures !VisionConfigured(config) ==> r.result == Failure(ConfigMissing(VisionConfigMessage)) && r.calls == []
    ensures VisionConfigured(config) ==>
      && r.calls == [PostVectorize(VectorizeRequestFor(imageUrl, config))]
      && r.result == ReadReply(imageUrl, services.post(VectorizeRequestFor(imageUrl, config)))
    ensures r.result.Success? ==>
      && r.result.value.imageUrl == imageUrl
      && r.result.value.modelVersion == ModelVersion
      && r.result.value.apiVersion == ApiVersion
  {
    if !VisionConfigured(config) then Traced(Failure(ConfigMissing(VisionConfigMessage)), [])
    else
      var request := VectorizeRequestFor(imageUrl, config);
      Traced(ReadReply(imageUrl, services.post(request)), [PostVectorize(request)])
  }

  /** `get_image_analysis_client`: the same two settings are required. */
  function AnalysisClient(config: Config): (r: Result<(), Error>)
    ensures r.Success? <==> VisionConfigured(config)
    ensures r.Failure? ==> r.error == ConfigMissing(VisionConfigMessage)
  {
    if !VisionConfigured(config) then Failure(ConfigMissing(VisionConfigMessage)) else Success(())
  }

  /** The analysis part of the merged record: the analysis without its URL. */
  datatype AnalysisSummary = AnalysisSummary(
    caption: Option<string>,
    confidence: Option<real>,
    denseCaptions: seq<CaptionRecord>,
    objects: seq<ObjectRecord>,
    tags: seq<TagRecord>,
    text: seq<LineRecord>)

  /** The record `process_image_complete` returns. */
  datatype CompleteData = CompleteData(
    imageUrl: string,
    vectorEmbedding: Json,
    modelVersion: string,
    analysis: AnalysisSummary)

  function Summary(a: AnalysisData): AnalysisSummary
  {
    AnalysisSummary(a.caption, a.confidence, a.denseCaptions, a.objects, a.tags, a.text)
  }

  /** `process_image_complete`: vectorise, then check the analysis settings,
      then analyse, then merge. Any failure aborts the whole call. */
  function ProcessImageComplete(imageUrl: string, config: Config, services: Services): (r: Traced<Result<CompleteData, Error>>)
    ensures var v := Vectorize(imageUrl, config, services);
      && v.calls <= r.calls
      && (v.result.Failure? ==> r.result == Failure(v.result.error) && r.calls == v.calls)
    ensures r.result.Success? <==>
      Vectorize(imageUrl, config, services).result.Success? && services.analyze(imageUrl).Success?
    ensures forall c :: c in r.calls ==> c.PostVectorize? || c == AnalyzeFromUrl(imageUrl)
  {
    var v := Vectorize(imageUrl, config, services);
    match v.result
    case Failure(e) => Traced(Failure(e), v.calls)
    case Success(vector) =>
      match AnalysisClient(config)
      case Failure(e) => Traced(Failure(e), v.calls)
      case Success(_) =>
        var calls := v.calls + [AnalyzeFromUrl(imageUrl)];
        match AnalyzeImage(imageUrl, services.analyze(imageUrl))
        case Failure(reason) => Traced(Failure(AnalysisFailed(reason)), calls)
        case Success(analysis) =>
          Traced(Success(CompleteData(imageUrl, vector.vector, vector.modelVersion, Summary(analysis))), calls)
  }

  // ---------------------------------------------------------------------------

  /** Trailing slashes on the endpoint make no difference to the request URL. */
  lemma {:induction false} TrailingSlashesIgnored(endpoint: string, n: nat)
    ensures VectorizeUrl(endpoint + seq(n, _ => '/')) == VectorizeUrl(endpoint)
    decreases n
  {
    if n > 0 {
      var slashes := seq(n - 1, _ => '/');
      assert endpoint + seq(n, _ => '/') == (endpoint + slashes) + ['/'];
      RStripAppend(endpoint + slashes, '/');
      TrailingSlashesIgnored(endpoint, n - 1);
    } else {
      assert endpoint + seq(n, _ => '/') == endpoint;
    }
  }

  /** A configuration without both Vision settings fails before any request. */
  lemma UnconfiguredMakesNoCalls(imageUrl: string, config: Config, services: Services)
    requires !VisionConfigured(config)
    ensures ProcessImageComplete(imageUrl, config, services).calls == []
    ensures ProcessImageComplete(imageUrl, config, services).result == Failure(ConfigMissing(VisionConfigMessage))
  {
  }

  /** Vectorisation comes first: when it fails the analyser is never called. */
  lemma AnalyzerNotCalledAfterVectorizeFailure(imageUrl: string, config: Config, services: Services)
    requires Vectorize(imageUrl, config, services).result.Failure?
    ensures forall c :: c in ProcessImageComplete(imageUrl, config, services).calls ==> !c.AnalyzeFromUrl?
  {
  }

  /** Once vectorisation has succeeded, the analysis-client check cannot fail:
      it reads the same two settings. */
  lemma ClientCheckPassesAfterVectorize(imageUrl: string, config: Config, services: Services)
    requires Vectorize(imageUrl, config, services).result.Success?
    ensures AnalysisClient(config).Success?
    ensures ProcessImageComplete(imageUrl, config, services).calls
         == Vectorize(imageUrl, config, services).calls + [AnalyzeFromUrl(imageUrl)]
  {
  }

  /** A failed analysis aborts the call with the analyser's message. */
  lemma AnalysisFailurePropagates(imageUrl: string, config: Config, services: Services)
    requires Vectorize(imageUrl, config, services).result.Success?
    requires services.analyze(imageUrl).Failure?
    ensures ProcessImageComplete(imageUrl, config, services).result
         == Failure(AnalysisFailed(services.analyze(imageUrl).error))
  {
  }

  /** The merged record carries the vectoriser's vector and model version and
      the normalised analysis, for the same URL. */
  lemma MergedRecord(imageUrl: string, config: Config, services: Services)
    requires ProcessImageComplete(imageUrl, config, services).result.Success?
    ensures var d := ProcessImageComplete(imageUrl, config, services).result.value;
      var v := Vectorize(imageUrl, config, services).result.value;
      var a := Normalise(imageUrl, services.analyze(imageUrl).value);
      && d.imageUrl == imageUrl
      && d.vectorEmbedding == v.vector
      && d.modelVersion == ModelVersion
      && d.analysis.caption == a.caption && d.analysis.confidence == a.confidence
      && d.analysis.denseCaptions == a.denseCaptions && d.analysis.objects == a.objects
      && d.analysis.tags == a.tags && d.analysis.text == a.text
  {
  }

  /** A successful reply without a `vector` field yields an empty embedding. */
  lemma MissingVectorIsEmpty(imageUrl: string, config: Config, services: Services, fields: map<string, Json>)
    requires VisionConfigured(config)
    requires var reply := services.post(VectorizeRequestFor(imageUrl, config));
      reply.Reply? && !RaisesForStatus(reply.status) && reply.body == Some(JObject(fields))
    requires "vector" !in fields
    requires services.analyze(imageUrl).Success?
    ensures ProcessImageComplete(imageUrl, config, services).result.value.vectorEmbedding == JArray([])
  {
  }
}

=== FILE: example.dfy ===
/** A worked example of an Event Grid blob subject, carried through
    `extract_blob_url_from_subject` and `is_image_file`: subject
    `/blobServices/default/containers/photos/blobs/2024/cat.jpg` under
    storage account `acct`. The example strings are written as
    concatenations of their segments. */
module Example {
  import opened Wrappers
  import opened Strings
  import opened Subject
  import opened Eligibility
  import opened App

  /** `/{a}/{b}` splits into an empty head and the two segments. */
  lemma TwoSegmentPath(a: string, b: string)
    requires '/' !in a && '/' !in b
    ensures Split("/" + a + "/" + b, '/') == ["", a, b]
  {
    assert "/" + a + "/" + b == [] + ['/'] + (a + ['/'] + b);
    SplitCons([], a + ['/'] + b, '/');
    SplitCons(a, b, '/');
    SplitNoSeparator(b, '/');
  }

  /** `{a}/{b}` splits into the two segments. */
  lemma OneSlash(a: string, b: string)
    requires '/' !in a && '/' !in b
    ensures Split(a + "/" + b, '/') == [a, b]
  {
    SplitCons(a, b, '/');
    SplitNoSeparator(b, '/');
  }

  /** A blob in folder `{folder}/` of a container is an image exactly when its
      file name is, whatever the account, container and folder. */
  lemma FolderBlobIsImage(account: string, container: string, folder: string, file: string)
    requires forall j :: 0 <= j < |account| ==> account[j] !in {'/', '?', '#'}
    requires '?' !in container + (folder + "/" + file) && '#' !in container + (folder + "/" + file)
    ensures IsImageFile(BlobUrl(account, BlobLocation(container, folder + "/" + file))) <==> IsImagePath(file)
  {
    BlobUrlEligibility(account, BlobLocation(container, folder + "/" + file));
    assert folder + "/" + file == (folder + "/") + file;
    TailDecidesImage(folder + "/", file);
  }

  /** The subject names container `photos` and blob `2024/cat.jpg`, and the
      URL built from it is `https://acct.blob.core.windows.net/photos/2024/cat.jpg`. */
  lemma ExampleParses()
    ensures ExtractBlobUrl("/" + "blobServices" + "/" + "default" + "/containers/" + "photos" + "/blobs/" + ("2024" + "/" + "cat.jpg"), Some("acct"))
         == Success("https://" + "acct" + ".blob.core.windows.net" + "/" + "photos" + "/" + ("2024" + "/" + "cat.jpg"))
  {
    var a: string := "blobServices";
    var b: string := "default";
    var y: string := "2024";
    var f: string := "cat.jpg";
    TwoSegmentPath(a, b);
    OneSlash(y, f);
    ExtractWellFormed("/" + a + "/" + b, "photos", y + "/" + f, "acct");
    BlobUrlShape("acct", "photos", y + "/" + f);
  }

  lemma ExampleExtension()
    ensures IsImagePath("cat.jpg")
  {
    var p: string := "cat.jpg";
    assert LastDotAt(p, 3);
    assert ToLower(p[4..]) == "jpg";
    ImagePathIff(p);
  }

  /** The URL of the example names an image. */
  lemma ExampleUrlIsImage()
    ensures IsImageFile("https://" + "acct" + ".blob.core.windows.net" + "/" + "photos" + "/" + ("2024" + "/" + "cat.jpg"))
  {
    var y: string := "2024";
    var f: string := "cat.jpg";
    FolderBlobIsImage("acct", "photos", y, f);
    BlobUrlShape("acct", "photos", y + "/" + f);
    ExampleExtension();
  }

  /** The example subject under account `acct` gives the expected URL, and
      that URL names an image whose file name is `cat.jpg`. */
  lemma ExampleSubjectIsImage()
    ensures ExtractBlobUrl("/" + "blobServices" + "/" + "default" + "/containers/" + "photos" + "/blobs/" + ("2024" + "/" + "cat.jpg"), Some("acct"))
         == Success("https://" + "acct" + ".blob.core.windows.net" + "/" + "photos" + "/" + ("2024" + "/" + "cat.jpg"))
    ensures IsImageFile("https://" + "acct" + ".blob.core.windows.net" + "/" + "photos" + "/" + ("2024" + "/" + "cat.jpg"))
    ensures ImageName("https://" + "acct" + ".blob.core.windows.net" + "/" + "photos" + "/" + ("2024" + "/" + "cat.jpg")) == "cat.jpg"
  {
    ExampleParses();
    ExampleUrlIsImage();
    FolderBlobName("acct", "photos", "2024", "cat.jpg");
  }
}

=== FILE: platform.dfy ===
/** What the functions see of the world around them: configuration read from
    the environment, JSON values, the outbound calls they issue and the
    services that answer those calls. Every service is a total function
    from request to outcome; an operation returns its result together with
    the calls it issued, in order, so that "never called" is a statement
    about that list. */
module Platform {
  import opened Wrappers
  import opened Utf8
  import opened Analysis
  import opened Uuid

  /** A decoded JSON document (`json.loads`). */
  datatype Json =
    | JNull
    | JBool(b: bool)
    | JNumber(n: real)
    | JString(s: string)
    | JArray(items: seq<Json>)
    | JObject(fields: map<string, Json>)

  /** Values Python's `len` accepts: strings, arrays and objects. `len` of
      `null`, a boolean or a number raises `TypeError`. */
  predicate HasLength(j: Json)
  {
    j.JString? || j.JArray? || j.JObject?
  }

  /** `d.get(key)`: the value under `key`, if any. */
  function Lookup(fields: map<string, Json>, key: string): (r: Option<Json>)
    ensures r.Some? <==> key in fields
    ensures r.Some? ==> r.value == fields[key]
  {
    if key in fields then Some(fields[key]) else None
  }

  /** The environment variables the functions read; `None` when unset. */
  datatype Config = Config(
    visionEndpoint: Option<string>,
    visionKey: Option<string>,
    storageAccount: Option<string>,
    searchEndpoint: Option<string>,
    searchAdminKey: Option<string>,
    searchIndexName: Option<string>)

  /** The image-vectorisation POST: URL, subscription key header, query
      parameters and the JSON payload's `url`. */
  datatype VectorizeRequest = VectorizeRequest(
    url: string,
    subscriptionKey: string,
    apiVersion: string,
    modelVersion: string,
    imageUrl: string)

  /** What `requests.post` gives back: either it raised (connection error,
      timeout) or there is a status code and a body, which is `None` when it
      is not JSON. */
  datatype HttpReply =
    | ConnectionFailed(reason: string)
    | Reply(status: int, body: Option<Json>)

  /** A search-index document as `upload` writes it. */
  datatype IndexDocument = IndexDocument(id: string, filename: string, url: string, vectorContent: Json)

  /** One entry of the index's answer to an upload or a delete. */
  datatype IndexingResult = IndexingResult(key: string, succeeded: bool, statusCode: int, errorMessage: Option<string>)

  /** A vector query with the search options `search_similar_images` passes. */
  datatype VectorQuery = VectorQuery(
    vector: seq<real>,
    kNearestNeighbors: int,
    fields: string,
    select: seq<string>,
    top: int)

  /** One search hit: its fields by name. */
  datatype SearchHit = SearchHit(fields: map<string, Json>)

  /** An outbound call. */
  datatype Call =
    | PostVectorize(request: VectorizeRequest)
    | AnalyzeFromUrl(imageUrl: string)
    | UploadDocuments(documents: seq<IndexDocument>)
    | DeleteDocuments(ids: seq<string>)
    | SearchIndex(query: VectorQuery)
    | EmbedText(text: Json)

  /** The services, each answering a request. A failed call (an exception
      from the client library) is a `Failure` carrying its message. `sha1`
      is the SHA-1 digest, which the model does not compute. */
  datatype Services = Services(
    post: VectorizeRequest -> HttpReply,
    analyze: string -> Result<ImageAnalysisResult, string>,
    uploadDocuments: seq<IndexDocument> -> Result<seq<IndexingResult>, string>,
    deleteDocuments: seq<string> -> Result<seq<IndexingResult>, string>,
    search: VectorQuery -> Result<seq<SearchHit>, string>,
    embedText: Json -> Result<seq<real>, string>,
    sha1: seq<byte> -> Digest)

  /** A result together with the calls issued to obtain it. */
  datatype Traced<+T> = Traced(result: T, calls: seq<Call>)

  /** Why an enrichment step raised. `NoLength` is the `TypeError` of taking
      the length of an embedding that is not a string, array or object. */
  datatype Error =
    | ConfigMissing(message: string)
    | RequestFailed(reason: string)
    | HttpStatus(status: int)
    | ResponseNotJson
    | ResponseNotObject
    | AnalysisFailed(reason: string)
    | NoLength
}

=== FILE: search.dfy ===
/** The search-index side: document identity (`generate_document_id`), the
    interpretation of the index's answer in `upload` and `delete_image`, and
    the formatting of hits in `search_similar_images`. None of these raise:
    every exception becomes a failure record or an empty list. */
module Search {
  import opened Wrappers
  import opened Utf8
  import opened Uuid
  import opened Platform

  /** The DNS namespace of Appendix C of RFC 4122, as text and as bytes. */
  const DnsNamespaceText: string := "6ba7b810-9dad-11d1-80b4-00c04fd430c8"
  const ImageNamespace: seq<byte> :=
    [0x6b, 0xa7, 0xb8, 0x10, 0x9d, 0xad, 0x11, 0xd1, 0x80, 0xb4, 0x00, 0xc0, 0x4f, 0xd4, 0x30, 0xc8]

  const SearchConfigMessage: string :=
    "AZURE_SEARCH_ENDPOINT, AZURE_SEARCH_ADMIN_KEY, and AZURE_SEARCH_INDEX_NAME environment variables must be set"
  const NoResultMessage: string := "No result returned from search service"
  const UploadedMessage: string := "Document uploaded successfully"
  const DeletedMessage: string := "Document deleted successfully"

  /** The three search settings are set and non-empty (`get_search_client`). */
  predicate SearchConfigured(config: Config)
  {
    IsSet(config.searchEndpoint) && IsSet(config.searchAdminKey) && IsSet(config.searchIndexName)
  }

  /** The SHA-1 input of a version-5 UUID: namespace bytes, then the name in UTF-8. */
  function HashInput(name: string): (bs: seq<byte>)
    ensures |bs| == 16 + |Encode(name)|
    ensures bs[..16] == ImageNamespace && bs[16..] == Encode(name)
  {
    ImageNamespace + Encode(name)
  }

  /** `generate_document_id`: `str(uuid.uuid5(IMAGE_NAMESPACE, name))`. */
  function GenerateDocumentId(name: string, sha1: seq<byte> -> Digest): (id: string)
    ensures IsCanonical(id)
    ensures id[14] == '5' && id[19] in {'8', '9', 'a', 'b'}
    ensures ParseUuid(id) == Some(Uuid5Bytes(sha1(HashInput(name))))
  {
    var d := sha1(HashInput(name));
    var u := Uuid5Bytes(d);
    UuidStringCanonical(u);
    VersionAndVariantDigits(d);
    ParseUuidString(u);
    UuidString(u)
  }

  /** What `upload` and `delete_image` return. */
  datatype Report =
    | Done(documentKey: string, statusCode: int, message: string)
    | Rejected(documentKey: string, statusCode: int, errorMessage: Option<string>)
    | Failed(error: string)

  /** The answer of the index to a one-document batch, read as a report.
      Only the first entry is looked at. */
  function Interpret(answer: Result<seq<IndexingResult>, string>, doneMessage: string): (r: Report)
    ensures answer.Failure? ==> r == Failed(answer.error)
    ensures answer.Success? && |answer.value| == 0 ==> r == Failed(NoResultMessage)
    ensures r.Done? <==> answer.Success? && |answer.value| > 0 && answer.value[0].succeeded
    ensures r.Rejected? <==> answer.Success? && |answer.value| > 0 && !answer.value[0].succeeded
    ensures r.Done? ==> r == Done(answer.value[0].key, answer.value[0].statusCode, doneMessage)
    ensures r.Rejected? ==>
      r == Rejected(answer.value[0].key, answer.value[0].statusCode, answer.value[0].errorMessage)
  {
    match answer
    case Failure(e) => Failed(e)
    case Success(entries) =>
      if |entries| == 0 then Failed(NoResultMessage)
      else
        var first := entries[0];
        if first.succeeded then Done(first.key, first.statusCode, doneMessage)
        else Rejected(first.key, first.statusCode, first.errorMessage)
  }

  /** The document `upload` writes for an image. */
  function MakeDocument(imageName: string, url: string, vector: Json, sha1: seq<byte> -> Digest): (doc: IndexDocument)
    ensures doc.id == GenerateDocumentId(imageName, sha1)
    ensures doc.filename == imageName && doc.url == url && doc.vectorContent == vector
  {
    IndexDocument(GenerateDocumentId(imageName, sha1), imageName, url, vector)
  }

  /** `upload`. */
  function Upload(imageName: string, url: string, vector: Json, config: Config, services: Services): (r: Traced<Report>)
    ensures !SearchConfigured(config) ==> r == Traced(Failed(SearchConfigMessage), [])
    ensures SearchConfigured(config) ==>
      var doc := MakeDocument(imageName, url, vector, services.sha1);
      && r.calls == [UploadDocuments([doc])]
      && r.result == Interpret(services.uploadDocuments([doc]), UploadedMessage)
    ensures r.result.Done? ==> r.result.message == UploadedMessage
  {
    if !SearchConfigured(config) then Traced(Failed(SearchConfigMessage), [])
    else
      var doc := MakeDocument(imageName, url, vector, services.sha1);
      Traced(Interpret(services.uploadDocuments([doc]), UploadedMessage), [UploadDocuments([doc])])
  }

  /** `delete_image`. */
  function DeleteImage(imageName: string, config: Config, services: Services): (r: Traced<Report>)
    ensures !SearchConfigured(config) ==> r == Traced(Failed(SearchConfigMessage), [])
    ensures SearchConfigured(config) ==>
      var id := GenerateDocumentId(imageName, services.sha1);
      && r.calls == [DeleteDocuments([id])]
      && r.result == Interpret(services.deleteDocuments([id]), DeletedMessage)
    ensures r.result.Done? ==> r.result.message == DeletedMessage
  {
    if !SearchConfigured(config) then Traced(Failed(SearchConfigMessage), [])
    else
      var id := GenerateDocumentId(imageName, services.sha1);
      Traced(Interpret(services.deleteDocuments([id]), DeletedMessage), [DeleteDocuments([id])])
  }

  // ---------------------------------------------------------------------------
  // Similar-image search.

  const DefaultTopK: int := 5
  const VectorFields: string := "vector"
  const SelectedFields: seq<string> := ["id", "image_name", "image_url"]
  const ScoreField: string := "@search.score"
  const DefaultScore: Json := JNumber(0.0)

  /** One formatted hit. */
  datatype SimilarImage = SimilarImage(id: Option<Json>, imageName: Option<Json>, imageUrl: Option<Json>, score: Json)

  /** One formatted hit. The Python dict always holds all four keys; a field
      is `None` there when the hit lacks it (`None` here) or stores `null`
      (`Some(JNull)` here), so both stand for Python's `None`. */
  function FormatHit(hit: SearchHit): (r: SimilarImage)
    ensures r.id.Some? <==> "id" in hit.fields
    ensures r.imageName.Some? <==> "image_name" in hit.fields
    ensures r.imageUrl.Some? <==> "image_url" in hit.fields
    ensures ScoreField in hit.fields ==> r.score == hit.fields[ScoreField]
    ensures ScoreField !in hit.fields ==> r.score == DefaultScore
  {
    SimilarImage(
      Lookup(hit.fields, "id"),
      Lookup(hit.fields, "image_name"),
      Lookup(hit.fields, "image_url"),
      Lookup(hit.fields, ScoreField).GetOr(DefaultScore))
  }

  /** The formatted hits, in the order the service returned them. */
  function FormatHits(hits: seq<SearchHit>): (r: seq<SimilarImage>)
    ensures |r| == |hits|
    ensures forall i :: 0 <= i < |hits| ==> r[i] == FormatHit(hits[i])
  {
    if |hits| == 0 then [] else [FormatHit(hits[0])] + FormatHits(hits[1..])
  }

  /** The query `search_similar_images` sends for a vector and a `top_k`. */
  function QueryFor(queryVector: seq<real>, topK: int): VectorQuery
  {
    VectorQuery(queryVector, topK, VectorFields, SelectedFields, topK)
  }

  /** `search_similar_images`. */
  function SearchSimilarImages(queryVector: seq<real>, topK: int, config: Config, services: Services): (r: Traced<seq<SimilarImage>>)
    ensures !SearchConfigured(config) ==> r == Traced([], [])
    ensures SearchConfigured(config) ==> r.calls == [SearchIndex(QueryFor(queryVector, topK))]
    ensures SearchConfigured(config) && services.search(QueryFor(queryVector, topK)).Failure? ==> r.result == []
    ensures SearchConfigured(config) && services.search(QueryFor(queryVector, topK)).Success? ==>
      var hits := services.search(QueryFor(queryVector, topK)).value;
      |r.result| == |hits| && forall i :: 0 <= i < |hits| ==> r.result[i] == FormatHit(hits[i])
  {
    if !SearchConfigured(config) then Traced([], [])
    else
      var query := QueryFor(queryVector, topK);
      match services.search(query)
      case Failure(_) => Traced([], [SearchIndex(query)])
      case Success(hits) => Traced(FormatHits(hits), [SearchIndex(query)])
  }

  // ---------------------------------------------------------------------------

  /** The byte constant is the DNS namespace UUID written in the source. */
  lemma NamespaceIsDns()
    ensures ParseUuid(DnsNamespaceText) == Some(ImageNamespace)
  {
    DnsTextCanonical();
    DnsHexPart();
    DnsBytes();
    UnhexHex(ImageNamespace);
  }

  lemma DnsTextCanonical()
    ensures IsCanonical(DnsNamespaceText)
  {
    var s := DnsNamespaceText;
    forall i | 0 <= i < 36
      ensures if IsHyphenPosition(i) then s[i] == '-' else IsHexDigit(s[i])
    {
    }
  }

  const DnsHexDigits: string := "6ba7b8109dad11d180b400c04fd430c8"

  lemma DnsHexPart()
    requires IsCanonical(DnsNamespaceText)
    ensures HexPart(DnsNamespaceText) == DnsHexDigits
  {
  }

  lemma DnsBytes()
    ensures Hex(ImageNamespace) == DnsHexDigits
  {
    DnsChunks();
    HexOfGroups(ImageNamespace, "6ba7b810", "9dad11d1", "80b400c0", "4fd430c8");
    DnsGroupsJoined();
  }

  lemma DnsGroupsJoined()
    ensures "6ba7b810" + "9dad11d1" + "80b400c0" + "4fd430c8" == DnsHexDigits
  {
  }

  /** The four groups of the namespace, in hex. */
  lemma DnsChunks()
    ensures Hex(ImageNamespace[..4]) == "6ba7b810"
    ensures Hex(ImageNamespace[4..8]) == "9dad11d1"
    ensures Hex(ImageNamespace[8..12]) == "80b400c0"
    ensures Hex(ImageNamespace[12..]) == "4fd430c8"
  {
    DnsChunk0();
    DnsChunk1();
    DnsChunk2();
    DnsChunk3();
  }

  lemma DnsChunk0()
    ensures Hex(ImageNamespace[..4]) == "6ba7b810"
  {
    var g: seq<byte> := [0x6b, 0xa7, 0xb8, 0x10];
    assert ImageNamespace[..4] == g;
  }

  lemma DnsChunk1()
    ensures Hex(ImageNamespace[4..8]) == "9dad11d1"
  {
    var g: seq<byte> := [0x9d, 0xad, 0x11, 0xd1];
    assert ImageNamespace[4..8] == g;
  }

  lemma DnsChunk2()
    ensures Hex(ImageNamespace[8..12]) == "80b400c0"
  {
    var g: seq<byte> := [0x80, 0xb4, 0x00, 0xc0];
    assert ImageNamespace[8..12] == g;
  }

  lemma DnsChunk3()
    ensures Hex(ImageNamespace[12..]) == "4fd430c8"
  {
    var g: seq<byte> := [0x4f, 0xd4, 0x30, 0xc8];
    assert ImageNamespace[12..] == g;
  }

  /** `upload` and `delete_image` address the same document for a name. */
  lemma DeleteTargetsUploadedDocument(imageName: string, url: string, vector: Json, config: Config, services: Services)
    requires SearchConfigured(config)
    ensures Upload(imageName, url, vector, config, services).calls[0].documents[0].id
         == DeleteImage(imageName, config, services).calls[0].ids[0]
  {
  }

  /** Two different names share an id only if SHA-1 maps two different inputs
      to digests that agree on every bit the UUID keeps. */
  lemma IdCollisionNeedsHashCollision(a: string, b: string, sha1: seq<byte> -> Digest)
    requires a != b
    requires GenerateDocumentId(a, sha1) == GenerateDocumentId(b, sha1)
    ensures HashInput(a) != HashInput(b)
    ensures Uuid5Bytes(sha1(HashInput(a))) == Uuid5Bytes(sha1(HashInput(b)))
  {
    if HashInput(a) == HashInput(b) {
      assert Encode(a) == HashInput(a)[16..] == HashInput(b)[16..] == Encode(b);
      EncodeInjective(a, b);
    }
  }

  /** Ids are equal exactly when the UUID bytes are. */
  lemma IdsEqualIff(a: string, b: string, sha1: seq<byte> -> Digest)
    ensures GenerateDocumentId(a, sha1) == GenerateDocumentId(b, sha1)
        <==> Uuid5Bytes(sha1(HashInput(a))) == Uuid5Bytes(sha1(HashInput(b)))
  {
  }

  /** The fields of a document as `upload` stores it, with a hit's score. */
  function StoredFields(doc: IndexDocument, score: Json): map<string, Json>
  {
    map["id" := JString(doc.id), "filename" := JString(doc.filename), "url" := JString(doc.url),
        "vector_content" := doc.vectorContent, ScoreField := score]
  }

  /** `upload` stores the name and URL under `filename` and `url`, while the
      search selects and reads `image_name` and `image_url`: a hit that carries
      back exactly the stored fields is formatted with neither. */
  lemma StoredDocumentLosesNameAndUrl(doc: IndexDocument, score: Json)
    ensures FormatHit(SearchHit(StoredFields(doc, score))) == SimilarImage(Some(JString(doc.id)), None, None, score)
  {
    var fields := StoredFields(doc, score);
    assert "image_name" !in fields && "image_url" !in fields by {
      assert fields.Keys == {"id", "filename", "url", "vector_content", ScoreField};
    }
  }

  /** A default search asks for five neighbours and five results. */
  lemma DefaultSearchAsksForFive(queryVector: seq<real>, config: Config, services: Services)
    requires SearchConfigured(config)
    ensures SearchSimilarImages(queryVector, DefaultTopK, config, services).calls[0].query.top == 5
    ensures SearchSimilarImages(queryVector, DefaultTopK, config, services).calls[0].query.kNearestNeighbors == 5
  {
  }
}

=== FILE: strings.dfy ===
/** Python `str` operations the core relies on, over `seq<char>`:
    `split` on one separator, `join`, `list.index`, `rstrip` of one character
    and ASCII `lower`. */
module Strings {

  /** `s.split(c)`: the maximal separator-free pieces, in order; never empty. */
  function Split(s: string, c: char): (parts: seq<string>)
    ensures |parts| >= 1
    ensures forall i :: 0 <= i < |parts| ==> c !in parts[i]
    decreases |s|
  {
    if |s| == 0 then [""]
    else
      var rest := Split(s[1..], c);
      if s[0] == c then [""] + rest
      else [[s[0]] + rest[0]] + rest[1..]
  }

  /** `c.join(parts)`. */
  function Join(parts: seq<string>, c: char): string
  {
    if |parts| == 0 then ""
    else if |parts| == 1 then parts[0]
    else parts[0] + [c] + Join(parts[1..], c)
  }

  /** The last element, Python's `xs[-1]`. */
  function Last<T>(xs: seq<T>): T
    requires |xs| > 0
  {
    xs[|xs| - 1]
  }

  /** `xs.index(x)`: the position of the first occurrence. */
  function IndexOf<T(==)>(xs: seq<T>, x: T): (i: nat)
    requires x in xs
    ensures i < |xs| && xs[i] == x
    ensures x !in xs[..i]
  {
    if xs[0] == x then 0 else 1 + IndexOf(xs[1..], x)
  }

  /** `s.rstrip(c)` for a single character `c`. */
  function RStrip(s: string, c: char): (r: string)
    ensures r <= s
    ensures forall i :: |r| <= i < |s| ==> s[i] == c
    ensures |r| == 0 || r[|r| - 1] != c
  {
    if |s| > 0 && s[|s| - 1] == c then RStrip(s[..|s| - 1], c) else s
  }

  /** Python's `needle in s` on strings: `needle` occurs as a contiguous slice. */
  predicate IsInfix(needle: string, s: string)
    decreases |s|
  {
    needle <= s || (|s| > 0 && IsInfix(needle, s[1..]))
  }

  /** ASCII lower-casing of one character. */
  function LowerChar(ch: char): char
  {
    if 'A' <= ch <= 'Z' then (ch as int + 32) as char else ch
  }

  /** `s.lower()`, restricted to ASCII letters. */
  function ToLower(s: string): (r: string)
    ensures |r| == |s|
    ensures forall i :: 0 <= i < |s| ==> r[i] == LowerChar(s[i])
  {
    seq(|s|, i requires 0 <= i < |s| => LowerChar(s[i]))
  }

  /** `s.startswith(prefix)`. A named predicate rather than `prefix <= s`, so
      that facts about URLs do not unfold into sequence-prefix reasoning. */
  predicate HasPrefix(s: string, prefix: string)
  {
    |prefix| <= |s| && s[..|prefix|] == prefix
  }

  // ---------------------------------------------------------------------------
  // Split and Join are inverse to each other.

  lemma {:induction false} JoinCons(x: string, ps: seq<string>, c: char)
    requires |ps| >= 1
    ensures Join([x] + ps, c) == x + [c] + Join(ps, c)
  {
    assert ([x] + ps)[1..] == ps;
  }

  /** Joining the pieces of a split gives back the original string. */
  lemma {:induction false} JoinSplit(s: string, c: char)
    ensures Join(Split(s, c), c) == s
    decreases |s|
  {
    if |s| == 0 {
    } else {
      var rest := Split(s[1..], c);
      JoinSplit(s[1..], c);
      if s[0] == c {
        JoinCons("", rest, c);
        assert s == [c] + s[1..];
      } else if |rest| == 1 {
        assert s == [s[0]] + s[1..];
      } else {
        var head := [s[0]] + rest[0];
        JoinCons(head, rest[1..], c);
        JoinCons(rest[0], rest[1..], c);
        assert rest == [rest[0]] + rest[1..];
        assert s == [s[0]] + s[1..];
      }
    }
  }

  /** A string without the separator is a single piece. */
  lemma {:induction false} SplitNoSeparator(s: string, c: char)
    requires c !in s
    ensures Split(s, c) == [s]
    decreases |s|
  {
    if |s| > 0 {
      assert c !in s[1..];
      SplitNoSeparator(s[1..], c);
      assert [s[0]] + s[1..] == s;
    }
  }

  /** Splitting distributes over one occurrence of the separator. */
  lemma {:induction false} SplitAppend(a: string, b: string, c: char)
    ensures Split(a + [c] + b, c) == Split(a, c) + Split(b, c)
    decreases |a|
  {
    var s := a + [c] + b;
    if |a| == 0 {
      assert s[1..] == b;
    } else {
      assert s[1..] == a[1..] + [c] + b;
      SplitAppend(a[1..], b, c);
    }
  }

  /** The last piece of `head + [c] + tail` is the last piece of `tail`. */
  lemma LastSplitAfter(head: string, tail: string, c: char)
    ensures Last(Split(head + [c] + tail, c)) == Last(Split(tail, c))
  {
    SplitAppend(head, tail, c);
  }

  /** A separator-free head splits off as one piece. */
  lemma SplitCons(a: string, b: string, c: char)
    requires c !in a
    ensures Split(a + [c] + b, c) == [a] + Split(b, c)
  {
    SplitAppend(a, b, c);
    SplitNoSeparator(a, c);
  }

  /** Splitting a join of separator-free pieces gives back the pieces. */
  lemma {:induction false} SplitJoin(parts: seq<string>, c: char)
    requires |parts| >= 1
    requires forall i :: 0 <= i < |parts| ==> c !in parts[i]
    ensures Split(Join(parts, c), c) == parts
    decreases |parts|
  {
    if |parts| == 1 {
      SplitNoSeparator(parts[0], c);
    } else {
      SplitNoSeparator(parts[0], c);
      SplitJoin(parts[1..], c);
      SplitAppend(parts[0], Join(parts[1..], c), c);
      assert parts == [parts[0]] + parts[1..];
    }
  }

  lemma {:induction false} JoinSnoc(ps: seq<string>, x: string, c: char)
    requires |ps| >= 1
    ensures Join(ps + [x], c) == Join(ps, c) + [c] + x
    decreases |ps|
  {
    if |ps| == 1 {
      assert ps + [x] == [ps[0]] + [x];
    } else {
      assert (ps + [x])[1..] == ps[1..] + [x];
      JoinSnoc(ps[1..], x, c);
    }
  }

  /** Joining two non-empty lists of pieces puts one separator between them. */
  lemma {:induction false} JoinConcat(xs: seq<string>, ys: seq<string>, c: char)
    requires |xs| >= 1 && |ys| >= 1
    ensures Join(xs + ys, c) == Join(xs, c) + [c] + Join(ys, c)
    decreases |xs|
  {
    if |xs| == 1 {
      JoinCons(xs[0], ys, c);
      assert xs + ys == [xs[0]] + ys;
    } else {
      assert (xs + ys)[1..] == xs[1..] + ys;
      JoinConcat(xs[1..], ys, c);
    }
  }

  /** Cutting the pieces at `k` cuts the joined string at one separator. */
  lemma JoinAt(parts: seq<string>, k: nat, c: char)
    requires 0 < k < |parts|
    ensures Join(parts, c) == Join(parts[..k], c) + [c] + Join(parts[k..], c)
  {
    assert parts == parts[..k] + parts[k..];
    JoinConcat(parts[..k], parts[k..], c);
  }

  /** The last piece of a split is the suffix after the last separator. */
  lemma LastPiece(s: string, c: char)
    ensures var t := Last(Split(s, c));
      && |t| <= |s| && s[|s| - |t|..] == t
      && (|Split(s, c)| > 1 ==> |t| < |s| && s[|s| - |t| - 1] == c)
      && (|Split(s, c)| == 1 ==> t == s)
  {
    var parts := Split(s, c);
    var n := |parts|;
    var t := parts[n - 1];
    JoinSplit(s, c);
    if n > 1 {
      var init := parts[..n - 1];
      assert parts == init + [t];
      JoinSnoc(init, t, c);
      var j := Join(init, c);
      assert s == j + [c] + t;
      assert s[|j| + 1..] == t;
      assert s[|j|] == c;
    }
  }

  /** A string splits into several pieces exactly when it holds the separator. */
  lemma SeveralPieces(s: string, c: char)
    ensures c in s <==> |Split(s, c)| > 1
  {
    if |Split(s, c)| == 1 {
      JoinSplit(s, c);
    } else {
      LastPiece(s, c);
    }
  }

  /** The first occurrence is the only position holding `x` with no `x` before it. */
  lemma IndexOfFirst<T>(xs: seq<T>, x: T, i: nat)
    requires i < |xs| && xs[i] == x && x !in xs[..i]
    ensures IndexOf(xs, x) == i
  {
  }

  /** `RStrip` is idempotent and ignores extra trailing separators. */
  lemma RStripAppend(s: string, c: char)
    ensures RStrip(s + [c], c) == RStrip(s, c)
  {
    assert (s + [c])[..|s + [c]| - 1] == s;
  }
}

=== FILE: subject.dfy ===
/** Derivation of a blob URL from an Event Grid blob-event subject such as
    `/blobServices/default/containers/{container}/blobs/{blob}`
    (`extract_blob_url_from_subject`). The storage account, read from the
    environment in the program, is a parameter. */
module Subject {
  import opened Wrappers
  import opened Strings

  /** The three `ValueError`s the parser raises, plus the missing account. */
  datatype SubjectError =
    | EmptySubject
    | InvalidFormat(subject: string)
    | CannotExtract(subject: string)
    | MissingStorageAccount

  /** Container and (possibly slash-containing) blob name named by a subject. */
  datatype BlobLocation = BlobLocation(container: string, blobName: string)

  /** The blob endpoint host of a storage account. */
  function BlobHost(account: string): string
  {
    account + ".blob.core.windows.net"
  }

  /** The URL template `https://{account}.blob.core.windows.net/{container}/{blob}`. */
  function BlobUrl(account: string, loc: BlobLocation): string
  {
    "https://" + BlobHost(account) + "/" + loc.container + "/" + loc.blobName
  }

  /** The blob URL template written out segment by segment. */
  lemma BlobUrlShape(account: string, container: string, blobName: string)
    ensures BlobUrl(account, BlobLocation(container, blobName))
         == "https://" + account + ".blob.core.windows.net" + "/" + container + "/" + blobName
  {
    var scheme: string := "https://";
    var domain: string := ".blob.core.windows.net";
    assert BlobHost(account) == account + domain;
    assert scheme + (account + domain) == scheme + account + domain;
  }

  /** A subject parses iff it has at least six `/`-segments and both tokens
      occur somewhere other than in the final segment. */
  predicate Parsable(parts: seq<string>)
  {
    && |parts| >= 6
    && "containers" in parts[..|parts| - 1]
    && "blobs" in parts[..|parts| - 1]
  }

  /** The structural checks and extraction of `extract_blob_url_from_subject`. */
  function ParseSubject(subject: string): (r: Result<BlobLocation, SubjectError>)
    ensures subject == [] ==> r == Failure(EmptySubject)
    ensures var parts := Split(subject, '/');
      subject != [] && (|parts| < 6 || "containers" !in parts || "blobs" !in parts) ==>
        r == Failure(InvalidFormat(subject))
    ensures r.Failure? ==> r.error != MissingStorageAccount
    ensures r.Success? ==> '/' !in r.value.container
  {
    if subject == [] then Failure(EmptySubject)
    else
      var parts := Split(subject, '/');
      if |parts| < 6 || "containers" !in parts || "blobs" !in parts then
        Failure(InvalidFormat(subject))
      else
        var ci := IndexOf(parts, "containers");
        var bi := IndexOf(parts, "blobs");
        if ci + 1 >= |parts| || bi + 1 >= |parts| then
          Failure(CannotExtract(subject))
        else
          Success(BlobLocation(parts[ci + 1], Join(parts[bi + 1..], '/')))
  }

  /** `extract_blob_url_from_subject`: the account is consulted only once the
      subject has passed every structural check. */
  function ExtractBlobUrl(subject: string, storageAccount: Option<string>): (r: Result<string, SubjectError>)
    ensures ParseSubject(subject).Failure? ==> r == Failure(ParseSubject(subject).error)
    ensures ParseSubject(subject).Success? && !IsSet(storageAccount) ==> r == Failure(MissingStorageAccount)
    ensures r.Success? <==> ParseSubject(subject).Success? && IsSet(storageAccount)
    ensures r.Success? ==> r.value == BlobUrl(storageAccount.value, ParseSubject(subject).value)
  {
    var loc :- ParseSubject(subject);
    if !IsSet(storageAccount) then Failure(MissingStorageAccount)
    else Success(BlobUrl(storageAccount.value, loc))
  }

  // ---------------------------------------------------------------------------

  /** The first occurrence of `x` is the final element exactly when `x` does
      not occur before the end. */
  lemma FirstIsLast(parts: seq<string>, x: string)
    requires x in parts
    ensures IndexOf(parts, x) + 1 >= |parts| <==> x !in parts[..|parts| - 1]
  {
    var i := IndexOf(parts, x);
    if i + 1 < |parts| {
      assert parts[..|parts| - 1][i] == x;
    } else {
      assert parts[..|parts| - 1] == parts[..i];
    }
  }

  /** Parsing succeeds exactly on non-empty subjects with at least six
      segments in which `containers` and `blobs` each occur before the final
      segment; a token whose first occurrence is the final segment is rejected. */
  lemma ParseSucceedsIff(subject: string)
    ensures ParseSubject(subject).Success? <==> subject != [] && Parsable(Split(subject, '/'))
  {
    var parts := Split(subject, '/');
    if subject != [] && |parts| >= 6 && "containers" in parts && "blobs" in parts {
      FirstIsLast(parts, "containers");
      FirstIsLast(parts, "blobs");
    }
  }

  /** A joined list of pieces whose last piece is `blobs` ends in `blobs`. */
  lemma EndsWithToken(head: seq<string>)
    requires |head| >= 1 && Last(head) == "blobs"
    ensures var h := Join(head, '/'); |h| >= 5 && h[|h| - 5..] == "blobs"
  {
    if |head| > 1 {
      JoinAt(head, |head| - 1, '/');
      assert head[|head| - 1..] == ["blobs"];
    }
  }

  lemma TokenThenTail(subject: string, h: string, b: string)
    requires subject == h + "/" + b
    requires |h| >= 5 && h[|h| - 5..] == "blobs"
    ensures |b| + 6 <= |subject| && subject[|subject| - |b| - 6..] == "blobs/" + b
  {
    assert subject[|subject| - |b| - 6..] == h[|h| - 5..] + "/" + b;
  }

  /** The pieces after a `blobs` piece, re-joined, are the tail of the joined string after `blobs/`. */
  lemma JoinedTail(subject: string, parts: seq<string>, bi: nat)
    requires Join(parts, '/') == subject
    requires bi + 1 < |parts| && parts[bi] == "blobs"
    ensures var b := Join(parts[bi + 1..], '/');
      |b| + 6 <= |subject| && subject[|subject| - |b| - 6..] == "blobs/" + b
  {
    var b := Join(parts[bi + 1..], '/');
    var h := Join(parts[..bi + 1], '/');
    JoinAt(parts, bi + 1, '/');
    EndsWithToken(parts[..bi + 1]);
    TokenThenTail(subject, h, b);
  }

  /** The extracted blob name is the subject's tail right after `blobs/`:
      re-joining the pieces keeps every internal slash. */
  lemma BlobNameIsTail(subject: string)
    requires ParseSubject(subject).Success?
    ensures var b := ParseSubject(subject).value.blobName;
      |b| + 6 <= |subject| && subject[|subject| - |b| - 6..] == "blobs/" + b
  {
    var parts := Split(subject, '/');
    JoinSplit(subject, '/');
    JoinedTail(subject, parts, IndexOf(parts, "blobs"));
  }

  /** For any subject of six or more segments whose first `containers`
      segment is at `ci` and first `blobs` segment at `bi`: parsing succeeds
      iff each has a segment after it, the container is the segment right
      after `ci` and the blob name re-joins everything after `bi`; otherwise
      it is the `CannotExtract` error. Later occurrences of either token are
      not looked at. */
  lemma ParseFirstTokens(subject: string, ci: nat, bi: nat)
    requires subject != []
    requires var parts := Split(subject, '/');
      && |parts| >= 6
      && ci < |parts| && parts[ci] == "containers" && "containers" !in parts[..ci]
      && bi < |parts| && parts[bi] == "blobs" && "blobs" !in parts[..bi]
    ensures var parts := Split(subject, '/');
      ParseSubject(subject).Success? <==> ci + 1 < |parts| && bi + 1 < |parts|
    ensures var parts := Split(subject, '/');
      ci + 1 < |parts| && bi + 1 < |parts| ==>
        ParseSubject(subject) == Success(BlobLocation(parts[ci + 1], Join(parts[bi + 1..], '/')))
    ensures var parts := Split(subject, '/');
      !(ci + 1 < |parts| && bi + 1 < |parts|) ==> ParseSubject(subject) == Failure(CannotExtract(subject))
  {
    var parts := Split(subject, '/');
    IndexOfFirst(parts, "containers", ci);
    IndexOfFirst(parts, "blobs", bi);
  }

  /** The segments of `{prefix}/{ct}/{c}/{bt}/{b}` for single-segment `ct`, `c`, `bt`. */
  lemma SegmentsOf(prefix: string, ct: string, container: string, bt: string, blobName: string)
    requires '/' !in ct && '/' !in container && '/' !in bt
    ensures Split(prefix + ['/'] + (ct + ['/'] + (container + ['/'] + (bt + ['/'] + blobName))), '/')
         == Split(prefix, '/') + [ct, container, bt] + Split(blobName, '/')
  {
    var t3 := bt + ['/'] + blobName;
    var t2 := container + ['/'] + t3;
    var t1 := ct + ['/'] + t2;
    SplitCons(bt, blobName, '/');
    SplitCons(container, t3, '/');
    SplitCons(ct, t2, '/');
    SplitAppend(prefix, t1, '/');
    assert Split(t1, '/') == [ct, container, bt] + Split(blobName, '/');
  }

  /** Where the first two tokens sit in `P + [ct, c, bt] + B`. */
  lemma TokenPositions(P: seq<string>, container: string, B: seq<string>, ct: string, bt: string)
    requires ct !in P && bt !in P && container != bt && ct != bt
    requires |B| >= 1
    ensures var parts := P + [ct, container, bt] + B;
      && IndexOf(parts, ct) == |P|
      && IndexOf(parts, bt) == |P| + 2
      && ct in parts[..|parts| - 1] && bt in parts[..|parts| - 1]
      && parts[|P| + 3..] == B
  {
    var parts := P + [ct, container, bt] + B;
    assert parts[..|P|] == P;
    IndexOfFirst(parts, ct, |P|);
    assert parts[..|P| + 2] == P + [ct, container];
    IndexOfFirst(parts, bt, |P| + 2);
    assert parts[..|parts| - 1][|P|] == ct;
    assert parts[..|parts| - 1][|P| + 2] == bt;
  }

  /** Parsing reads the container after the first `containers` segment and
      re-joins the pieces after the first `blobs` segment. */
  lemma ParseFromParts(s: string, parts: seq<string>, ci: nat, bi: nat)
    requires s != [] && Split(s, '/') == parts && |parts| >= 6
    requires "containers" in parts && IndexOf(parts, "containers") == ci && ci + 1 < |parts|
    requires "blobs" in parts && IndexOf(parts, "blobs") == bi && bi + 1 < |parts|
    ensures ParseSubject(s) == Success(BlobLocation(parts[ci + 1], Join(parts[bi + 1..], '/')))
  {
    assert !(|parts| < 6 || "containers" !in parts || "blobs" !in parts);
    assert !(ci + 1 >= |parts| || bi + 1 >= |parts|);
  }

  /** The segments of a subject `{prefix}/containers/{c}/blobs/{b}`. */
  lemma SubjectSegments(prefix: string, container: string, blobName: string)
    requires '/' !in container
    ensures Split(prefix + "/containers/" + container + "/blobs/" + blobName, '/')
         == Split(prefix, '/') + ["containers", container, "blobs"] + Split(blobName, '/')
  {
    var ct: string := "containers";
    var bt: string := "blobs";
    var s := prefix + "/containers/" + container + "/blobs/" + blobName;
    assert s == prefix + ['/'] + (ct + ['/'] + (container + ['/'] + (bt + ['/'] + blobName)));
    SegmentsOf(prefix, ct, container, bt, blobName);
  }

  /** Any subject with the segments `P + [containers, c, blobs] + B`, where `P`
      holds neither token, names container `c` and blob `Join(B)`. */
  lemma ParseSegments(s: string, P: seq<string>, container: string, B: seq<string>)
    requires s != [] && Split(s, '/') == P + ["containers", container, "blobs"] + B
    requires "containers" !in P && "blobs" !in P && container != "blobs"
    requires |B| >= 1 && |P| + |B| >= 3
    ensures ParseSubject(s) == Success(BlobLocation(container, Join(B, '/')))
  {
    var ct: string := "containers";
    var bt: string := "blobs";
    TokenPositions(P, container, B, ct, bt);
    ParseFromParts(s, P + [ct, container, bt] + B, |P|, |P| + 2);
  }

  /** A subject built as `{prefix}/containers/{c}/blobs/{b}` names exactly
      container `c` and blob `b`, slashes inside `b` included, provided the
      prefix holds neither token and `c` is one segment other than `blobs`.
      Later `containers` or `blobs` segments inside `b` are not looked at. */
  lemma ParseWellFormed(prefix: string, container: string, blobName: string)
    requires "containers" !in Split(prefix, '/') && "blobs" !in Split(prefix, '/')
    requires '/' !in container && container != "blobs"
    requires |Split(prefix, '/')| + |Split(blobName, '/')| >= 3
    ensures ParseSubject(prefix + "/containers/" + container + "/blobs/" + blobName)
         == Success(BlobLocation(container, blobName))
  {
    var s := prefix + "/containers/" + container + "/blobs/" + blobName;
    SubjectSegments(prefix, container, blobName);
    ParseSegments(s, Split(prefix, '/'), container, Split(blobName, '/'));
    JoinSplit(blobName, '/');
  }

  /** The same statement for the whole of `extract_blob_url_from_subject`. */
  lemma ExtractWellFormed(prefix: string, container: string, blobName: string, account: string)
    requires "containers" !in Split(prefix, '/') && "blobs" !in Split(prefix, '/')
    requires '/' !in container && container != "blobs"
    requires |Split(prefix, '/')| + |Split(blobName, '/')| >= 3
    requires account != ""
    ensures ExtractBlobUrl(prefix + "/containers/" + container + "/blobs/" + blobName, Some(account))
         == Success(BlobUrl(account, BlobLocation(container, blobName)))
  {
    ParseWellFormed(prefix, container, blobName);
  }
}

=== FILE: utf8.dfy ===
/** UTF-8 encoding of a string, the bytes a version-5 UUID hashes for a
    name (`name.encode("utf-8")`), with a decoder that inverts it. */
module Utf8 {
  import opened Wrappers

  newtype byte = x: int | 0 <= x < 256

  predicate IsContinuation(b: byte)
  {
    0x80 <= b < 0xC0
  }

  /** Code points a `char` can hold: every Unicode scalar value. */
  predicate IsScalar(v: int)
  {
    0 <= v < 0xD800 || 0xE000 <= v < 0x11_0000
  }

  /** The one-to-four-byte UTF-8 form of one character. */
  function EncodeChar(c: char): (bs: seq<byte>)
    ensures 1 <= |bs| <= 4
    ensures |bs| == 1 <==> c as int < 0x80
    ensures |bs| == 1 ==> bs[0] as int == c as int
    ensures forall i :: 1 <= i < |bs| ==> IsContinuation(bs[i])
  {
    var cp := c as int;
    if cp < 0x80 then [cp as byte]
    else if cp < 0x800 then [(0xC0 + cp / 64) as byte, (0x80 + cp % 64) as byte]
    else if cp < 0x1_0000 then
      [(0xE0 + cp / 4096) as byte, (0x80 + (cp / 64) % 64) as byte, (0x80 + cp % 64) as byte]
    else
      [(0xF0 + cp / 262144) as byte, (0x80 + (cp / 4096) % 64) as byte,
       (0x80 + (cp / 64) % 64) as byte, (0x80 + cp % 64) as byte]
  }

  function Encode(s: string): (bs: seq<byte>)
    ensures |s| <= |bs| <= 4 * |s|
  {
    if |s| == 0 then [] else EncodeChar(s[0]) + Encode(s[1..])
  }

  /** Reads one character from the front of `bs`: the character and the
      number of bytes it took, or `None` on an invalid sequence. */
  function DecodeChar(bs: seq<byte>): (r: Option<(char, nat)>)
    ensures r.Some? ==> 1 <= r.value.1 <= |bs|
  {
    if |bs| == 0 then None
    else
      var b0 := bs[0] as int;
      if b0 < 0x80 then Some((b0 as char, 1))
      else if 0xC0 <= b0 < 0xE0 && |bs| >= 2 && IsContinuation(bs[1]) then
        var v := (b0 - 0xC0) * 64 + (bs[1] as int - 0x80);
        if IsScalar(v) then Some((v as char, 2)) else None
      else if 0xE0 <= b0 < 0xF0 && |bs| >= 3 && IsContinuation(bs[1]) && IsContinuation(bs[2]) then
        var v := (b0 - 0xE0) * 4096 + (bs[1] as int - 0x80) * 64 + (bs[2] as int - 0x80);
        if IsScalar(v) then Some((v as char, 3)) else None
      else if 0xF0 <= b0 < 0xF8 && |bs| >= 4
        && IsContinuation(bs[1]) && IsContinuation(bs[2]) && IsContinuation(bs[3]) then
        var v := (b0 - 0xF0) * 262144 + (bs[1] as int - 0x80) * 4096
          + (bs[2] as int - 0x80) * 64 + (bs[3] as int - 0x80);
        if IsScalar(v) then Some((v as char, 4)) else None
      else None
  }

  function Decode(bs: seq<byte>): Option<string>
    decreases |bs|
  {
    if |bs| == 0 then Some("")
    else
      match DecodeChar(bs)
      case None => None
      case Some((c, n)) =>
        match Decode(bs[n..])
        case None => None
        case Some(rest) => Some([c] + rest)
  }

  // ---------------------------------------------------------------------------

  lemma DecodeTwo(cp: int)
    requires 0x80 <= cp < 0x800
    ensures (cp / 64) * 64 + cp % 64 == cp
  {
  }

  lemma DecodeThree(cp: int)
    requires 0x800 <= cp < 0x1_0000
    ensures (cp / 4096) * 4096 + ((cp / 64) % 64) * 64 + cp % 64 == cp
  {
    assert (cp / 64) / 64 == cp / 4096;
  }

  lemma DecodeFour(cp: int)
    requires 0x1_0000 <= cp < 0x11_0000
    ensures (cp / 262144) * 262144 + ((cp / 4096) % 64) * 4096 + ((cp / 64) % 64) * 64 + cp % 64 == cp
  {
    assert (cp / 64) / 64 == cp / 4096;
    assert (cp / 4096) / 64 == cp / 262144;
  }

  /** Decoding the front of an encoded character gives back that character. */
  lemma DecodeEncodeChar(c: char, rest: seq<byte>)
    ensures DecodeChar(EncodeChar(c) + rest) == Some((c, |EncodeChar(c)|))
  {
    var cp := c as int;
    var bs := EncodeChar(c) + rest;
    if cp < 0x80 {
    } else if cp < 0x800 {
      DecodeTwo(cp);
      assert bs[0] as int == 0xC0 + cp / 64 && bs[1] as int == 0x80 + cp % 64;
    } else if cp < 0x1_0000 {
      DecodeThree(cp);
      assert bs[0] as int == 0xE0 + cp / 4096;
      assert bs[1] as int == 0x80 + (cp / 64) % 64;
      assert bs[2] as int == 0x80 + cp % 64;
    } else {
      DecodeFour(cp);
      assert bs[0] as int == 0xF0 + cp / 262144;
      assert bs[1] as int == 0x80 + (cp / 4096) % 64;
      assert bs[2] as int == 0x80 + (cp / 64) % 64;
      assert bs[3] as int == 0x80 + cp % 64;
    }
  }

  /** Decoding an encoding gives back the string. */
  lemma {:induction false} DecodeEncode(s: string)
    ensures Decode(Encode(s)) == Some(s)
    decreases |s|
  {
    if |s| > 0 {
      var e := EncodeChar(s[0]);
      var bs := Encode(s);
      assert bs == e + Encode(s[1..]);
      DecodeEncodeChar(s[0], Encode(s[1..]));
      assert bs[|e|..] == Encode(s[1..]);
      DecodeEncode(s[1..]);
      assert s == [s[0]] + s[1..];
    }
  }

  /** Distinct strings have distinct encodings. */
  lemma EncodeInjective(s: string, t: string)
    requires Encode(s) == Encode(t)
    ensures s == t
  {
    DecodeEncode(s);
    DecodeEncode(t);
  }

  /** ASCII text encodes byte for byte. */
  lemma {:induction false} EncodeAscii(s: string)
    requires forall i :: 0 <= i < |s| ==> s[i] as int < 0x80
    ensures |Encode(s)| == |s|
    ensures forall i :: 0 <= i < |s| ==> Encode(s)[i] as int == s[i] as int
    decreases |s|
  {
    if |s| > 0 {
      EncodeAscii(s[1..]);
    }
  }
}

=== FILE: uuid.dfy ===
/** Name-based (version 5) UUIDs as section 4.3 of RFC 4122 builds them,
    rendered in the canonical string form of section 3 of RFC 4122. The
    SHA-1 digest is an input: only its first 16 bytes, the version and
    variant fields and the text form are modelled. */
module Uuid {
  import opened Wrappers
  import opened Utf8

  /** A SHA-1 digest: 20 bytes. */
  type Digest = s: seq<byte> | |s| == 20 witness seq(20, _ => 0 as byte)

  /** The version-5 bytes from a digest: its first 16 bytes, with the high
      nibble of byte 6 set to the version (5, section 4.1.3 of RFC 4122) and
      the two high bits of byte 8 set to the variant `10` (section 4.1.1). */
  function Uuid5Bytes(d: Digest): (u: seq<byte>)
    ensures |u| == 16
    ensures u[6] / 16 == 5 && u[6] % 16 == d[6] % 16
    ensures u[8] / 64 == 2 && u[8] % 64 == d[8] % 64
    ensures forall i :: 0 <= i < 16 && i != 6 && i != 8 ==> u[i] == d[i]
  {
    d[..6] + [d[6] % 16 + 0x50, d[7], d[8] % 64 + 0x80] + d[9..16]
  }

  const HexDigits: string := "0123456789abcdef"

  predicate IsHexDigit(ch: char)
  {
    '0' <= ch <= '9' || 'a' <= ch <= 'f'
  }

  function HexDigit(n: int): (ch: char)
    requires 0 <= n < 16
    ensures IsHexDigit(ch)
  {
    if n < 10 then ('0' as int + n) as char else ('a' as int + n - 10) as char
  }

  function HexValue(ch: char): (n: int)
    requires IsHexDigit(ch)
    ensures 0 <= n < 16
  {
    if ch <= '9' then ch as int - '0' as int else ch as int - 'a' as int + 10
  }

  /** Two lower-case hex digits per byte, high nibble first. */
  function Hex(bs: seq<byte>): (s: string)
    ensures |s| == 2 * |bs|
    ensures forall i :: 0 <= i < |s| ==> IsHexDigit(s[i])
    ensures forall k :: 0 <= k < |bs| ==>
      s[2 * k] == HexDigit(bs[k] as int / 16) && s[2 * k + 1] == HexDigit(bs[k] as int % 16)
  {
    if |bs| == 0 then ""
    else [HexDigit(bs[0] as int / 16), HexDigit(bs[0] as int % 16)] + Hex(bs[1..])
  }

  /** Hex digits of a concatenation are the concatenated digits. */
  lemma {:induction false} HexAppend(a: seq<byte>, b: seq<byte>)
    ensures Hex(a + b) == Hex(a) + Hex(b)
    decreases |a|
  {
    if |a| > 0 {
      assert (a + b)[1..] == a[1..] + b;
      HexAppend(a[1..], b);
    } else {
      assert a + b == b;
    }
  }

  /** The hex digits of 16 bytes, group by group. */
  lemma HexOfGroups(u: seq<byte>, a: string, b: string, c: string, d: string)
    requires |u| == 16
    requires Hex(u[..4]) == a && Hex(u[4..8]) == b && Hex(u[8..12]) == c && Hex(u[12..]) == d
    ensures Hex(u) == a + b + c + d
  {
    var g0, g1, g2, g3 := u[..4], u[4..8], u[8..12], u[12..];
    assert u == g0 + g1 + g2 + g3;
    HexAppend(g0 + g1 + g2, g3);
    HexAppend(g0 + g1, g2);
    HexAppend(g0, g1);
  }

  /** Reads pairs of hex digits back into bytes. */
  function Unhex(s: string): (bs: seq<byte>)
    requires |s| % 2 == 0
    requires forall i :: 0 <= i < |s| ==> IsHexDigit(s[i])
    ensures |bs| == |s| / 2
    ensures forall k :: 0 <= k < |bs| ==> bs[k] as int == 16 * HexValue(s[2 * k]) + HexValue(s[2 * k + 1])
  {
    if |s| == 0 then []
    else [(16 * HexValue(s[0]) + HexValue(s[1])) as byte] + Unhex(s[2..])
  }

  /** Positions of the four hyphens in the 36-character form. */
  predicate IsHyphenPosition(i: int)
  {
    i == 8 || i == 13 || i == 18 || i == 23
  }

  /** The canonical form: 36 characters, hyphens at 8, 13, 18 and 23 and
      lower-case hex digits everywhere else. */
  predicate IsCanonical(s: string)
  {
    && |s| == 36
    && forall i :: 0 <= i < 36 ==> if IsHyphenPosition(i) then s[i] == '-' else IsHexDigit(s[i])
  }

  /** Where hex digit `j` of 32 sits once the hyphens are in. */
  function DigitPosition(j: int): (i: int)
    requires 0 <= j < 32
    ensures 0 <= i < 36 && !IsHyphenPosition(i)
  {
    if j < 8 then j else if j < 12 then j + 1 else if j < 16 then j + 2
    else if j < 20 then j + 3 else j + 4
  }

  /** The hex digit shown at a non-hyphen position. */
  function DigitIndex(i: int): (j: int)
    requires 0 <= i < 36 && !IsHyphenPosition(i)
    ensures 0 <= j < 32 && DigitPosition(j) == i
  {
    if i < 8 then i else if i < 13 then i - 1 else if i < 18 then i - 2
    else if i < 23 then i - 3 else i - 4
  }

  /** Splits 32 hex digits into groups of 8, 4, 4, 4 and 12. */
  function InsertHyphens(h: string): (s: string)
    requires |h| == 32
    ensures |s| == 36
    ensures forall i :: 0 <= i < 36 && IsHyphenPosition(i) ==> s[i] == '-'
    ensures forall j :: 0 <= j < 32 ==> s[DigitPosition(j)] == h[j]
  {
    var s := seq(36, i requires 0 <= i < 36 => if IsHyphenPosition(i) then '-' else h[DigitIndex(i)]);
    assert forall j :: 0 <= j < 32 ==> DigitIndex(DigitPosition(j)) == j;
    s
  }

  /** The hex digits of a canonical form, hyphens dropped. */
  function HexPart(s: string): (h: string)
    requires |s| == 36
    ensures |h| == 32
    ensures forall i :: 0 <= i < 36 && !IsHyphenPosition(i) ==> h[DigitIndex(i)] == s[i]
  {
    seq(32, j requires 0 <= j < 32 => s[DigitPosition(j)])
  }

  /** `str(uuid)`: the 32 hex digits of the 16 bytes, hyphenated. Byte `k`
      shows as hex digits `2k` and `2k + 1`, high nibble first. */
  function UuidString(u: seq<byte>): (s: string)
    requires |u| == 16
    ensures |s| == 36
    ensures s[8] == '-' && s[13] == '-' && s[18] == '-' && s[23] == '-'
    ensures forall k :: 0 <= k < 16 ==>
      && s[DigitPosition(2 * k)] == HexDigit(u[k] as int / 16)
      && s[DigitPosition(2 * k + 1)] == HexDigit(u[k] as int % 16)
  {
    InsertHyphens(Hex(u))
  }

  /** `uuid.UUID(text)` restricted to the canonical lower-case form. */
  function ParseUuid(s: string): (r: Option<seq<byte>>)
    ensures r.Some? <==> IsCanonical(s)
    ensures r.Some? ==> |r.value| == 16
  {
    if IsCanonical(s) then
      var h := HexPart(s);
      assert forall j :: 0 <= j < 32 ==> IsHexDigit(h[j]) by {
        assert forall j :: 0 <= j < 32 ==> h[j] == s[DigitPosition(j)];
      }
      Some(Unhex(h))
    else None
  }

  // ---------------------------------------------------------------------------

  lemma HexRoundTrip(n: int)
    requires 0 <= n < 16
    ensures HexValue(HexDigit(n)) == n
  {
  }

  lemma DigitRoundTrip(ch: char)
    requires IsHexDigit(ch)
    ensures HexDigit(HexValue(ch)) == ch
  {
  }

  /** Reading back the hex digits of any bytes gives the bytes. */
  lemma {:induction false} UnhexHex(u: seq<byte>)
    ensures Unhex(Hex(u)) == u
  {
    if |u| > 0 {
      var h := Hex(u);
      HexRoundTrip(u[0] as int / 16);
      HexRoundTrip(u[0] as int % 16);
      assert h[2..] == Hex(u[1..]);
      UnhexHex(u[1..]);
      assert Unhex(h) == [u[0]] + Unhex(h[2..]);
    }
  }

  /** The two digits of `16 * hi + lo`. */
  lemma DigitsOfByte(hi: int, lo: int)
    requires 0 <= hi < 16 && 0 <= lo < 16
    ensures (16 * hi + lo) / 16 == hi && (16 * hi + lo) % 16 == lo
  {
  }

  /** Any even run of hex digits is the hex form of the bytes it reads as. */
  lemma {:induction false} HexUnhex(h: string)
    requires |h| % 2 == 0
    requires forall i :: 0 <= i < |h| ==> IsHexDigit(h[i])
    ensures Hex(Unhex(h)) == h
  {
    if |h| > 0 {
      var u := Unhex(h);
      var hi, lo := HexValue(h[0]), HexValue(h[1]);
      assert u[0] as int == 16 * hi + lo;
      DigitsOfByte(hi, lo);
      DigitRoundTrip(h[0]);
      DigitRoundTrip(h[1]);
      assert u[1..] == Unhex(h[2..]);
      HexUnhex(h[2..]);
      assert Hex(u) == [HexDigit(hi), HexDigit(lo)] + Hex(u[1..]);
      assert h == [h[0], h[1]] + h[2..];
    }
  }

  /** The text form of any 16 bytes is canonical. */
  lemma UuidStringCanonical(u: seq<byte>)
    requires |u| == 16
    ensures IsCanonical(UuidString(u))
  {
    var h := Hex(u);
    var s := UuidString(u);
    forall i | 0 <= i < 36 && !IsHyphenPosition(i)
      ensures IsHexDigit(s[i])
    {
      var j := DigitIndex(i);
      assert s[i] == h[j];
      var k := j / 2;
      assert j == 2 * k || j == 2 * k + 1;
    }
  }

  /** Parsing the canonical form of any 16 bytes gives those bytes back. */
  lemma ParseUuidString(u: seq<byte>)
    requires |u| == 16
    ensures ParseUuid(UuidString(u)) == Some(u)
  {
    var h := Hex(u);
    var s := UuidString(u);
    UuidStringCanonical(u);
    var p := HexPart(s);
    forall j | 0 <= j < 32
      ensures p[j] == h[j]
    {
      assert s[DigitPosition(j)] == h[j];
    }
    assert p == h;
    UnhexHex(u);
  }

  /** Every canonical string is the form of the bytes it parses to. */
  lemma UuidStringParse(s: string)
    requires IsCanonical(s)
    ensures UuidString(ParseUuid(s).value) == s
  {
    var h := HexPart(s);
    forall j | 0 <= j < 32
      ensures IsHexDigit(h[j])
    {
      assert h[j] == s[DigitPosition(j)];
    }
    HexUnhex(h);
    var t := InsertHyphens(h);
    forall i | 0 <= i < 36
      ensures t[i] == s[i]
    {
      if !IsHyphenPosition(i) {
        assert t[DigitPosition(DigitIndex(i))] == h[DigitIndex(i)];
      }
    }
  }

  /** The canonical form is one-to-one. */
  lemma UuidStringInjective(u: seq<byte>, v: seq<byte>)
    requires |u| == 16 && |v| == 16
    requires UuidString(u) == UuidString(v)
    ensures u == v
  {
    ParseUuidString(u);
    ParseUuidString(v);
  }

  /** Character 14 of a version-5 UUID is `5`; character 19 is one of
      `8`, `9`, `a`, `b`. */
  lemma VersionAndVariantDigits(d: Digest)
    ensures UuidString(Uuid5Bytes(d))[14] == '5'
    ensures UuidString(Uuid5Bytes(d))[19] in {'8', '9', 'a', 'b'}
  {
    var u := Uuid5Bytes(d);
    var s := UuidString(u);
    assert DigitPosition(12) == 14 && DigitPosition(16) == 19;
    assert s[14] == Hex(u)[12];
    assert s[19] == Hex(u)[16];
    assert u[8] as int / 16 in {8, 9, 10, 11};
  }
}

=== FILE: wrappers.dfy ===
/** Failure-compatible wrappers used across the model: an optional value and a
    success-or-error result. Python's `None` becomes `None`, a raised exception
    becomes `Failure`. */
module Wrappers {

  datatype Option<+T> = None | Some(value: T) {

    /** The value when present, otherwise `default` (Python's `x or default`). */
    function GetOr(default: T): T {
      match this
      case Some(v) => v
      case None => default
    }
  }

  datatype Result<+R, +E> = Success(value: R) | Failure(error: E) {

    predicate IsFailure() {
      Failure?
    }

    function PropagateFailure<U>(): Result<U, E>
      requires Failure?
    {
      Failure(error)
    }

    function Extract(): R
      requires Success?
    {
      value
    }
  }

  /** Python truthiness of an optional string: `None` and `""` are both falsy. */
  predicate IsSet(s: Option<string>) {
    s.Some? && s.value != ""
  }
}
